=== FILE: README.md ===
# Stream-client core of the H.264 receiver, in Dafny

The repository contains three small TCP clients that receive an H.264
elementary stream and display it: an FFmpeg client built on boost.asio
(`asio_net/src/boost_main.cpp`), an FFmpeg client built on winsock
(`asio_net/src/winsock_main.cpp`) and a client that decodes with an Intel
Quick Sync decoder (`asio_net2/src/boost_main.cpp`, using
`IntelQsvH264Decoder` from `asio_net2/include/intel_video_decoder.h`).

This project models the parts of those clients that are pure logic:

- `LittleEndian` — `byteToInt`, the 4-byte little-endian decode used for
  every header field (the winsock client repeats the same expression inline).
  The bit pattern is computed with the C operations on `bv32` (signed `char`
  promotion, `& 0xff`, shifts, `|`) and read as a two's-complement `int`.
- `WireFrame` — the boost clients' frame reader: type tag (must be 1, H.264),
  timestamp, length, payload; the receive loop of one connection; the
  once-per-connection creation of the FFmpeg decoder context inside it.
- `WinsockReceive` — the winsock client's length header (a length <= 0 ends
  the session), its chunked `recv` accumulation loop as written and as
  corrected (see Findings), and the once-per-connection decoder creation.
- `Decimal` — `std::to_string`, `std::stoi` and the stream extraction behind
  `ptree::get_optional<int>`.
- `ResizeConfig` — the `resize` setting: the `"WxH"` parser in `readIniFile`,
  the formatter in `writeIniFile`, and the condition that turns resizing on.
- `IniConfig` — both clients' `readIniFile`/`writeIniFile` at the level of
  key/value pairs, with their defaults.
- `MsdkMacros` — `MSDK_ALIGN32`, `MSDK_ALIGN16`, `MSDK_MAX`,
  `MSDK_IGNORE_MFX_STS`, `MSDK_BREAK_ON_ERROR`, `MSDK_SAFE_DELETE_ARRAY`,
  `MSDK_SAFE_RELEASE`.
- `QsvDecoder` — the initial field values and getters of `IntelQsvH264Decoder`.
- `QsvClient` — the Quick Sync client's driving loop over an abstract
  decoder: header gating, skipping a packet on a failed decode, tracking the
  frame size and reallocating the `w*h*3` output buffer, polling `getFrame`.

The socket is modelled as the sequence of bytes it still delivers; the
decoder as an oracle whose answers for each packet are given as a `Reply`.
`asio_net/src/winsock_main.cpp` uses `bufLen` without declaring it; the model
treats it as an `int` local of the session loop.

## Model

| member | source | states |
|---|---|---|
| `LittleEndian.ByteToInt` | asio_net/src/boost_main.cpp:50-53 | the result is the two's-complement reading of buf[0] + 256·buf[1] + 65536·buf[2] + 2^24·buf[3]: buf[0] is least significant, buf[3] most (same expression at asio_net2/src/boost_main.cpp:43-46 and winsock_main.cpp:191) |
| `LittleEndian.PatternBytes` | asio_net/src/boost_main.cpp:52 | byte k of the computed 32-bit pattern is buf[k]: buf[0] gives bits 0–7, buf[3] bits 24–31 |
| `LittleEndian.MaskUndoesPromotion` | asio_net/src/boost_main.cpp:52 | `& 0xff` removes exactly the bits that sign extension of a `char` added |
| `LittleEndian.UnmaskedPromotionLeaks` | asio_net/src/boost_main.cpp:52 | without the mask, byte 0x80 would set all higher bits |
| `LittleEndian.ByteToIntSign` | asio_net/src/boost_main.cpp:52 | the decoded value is negative exactly when buf[3] >= 0x80 |
| `LittleEndian.IntToBytes` | asio_net/src/boost_main.cpp:50-53 | the sender's encoding of a 32-bit value is four bytes, the inverse of `byteToInt` (see the two round trips below) |
| `LittleEndian.ByteToIntRoundTrip` | asio_net/src/boost_main.cpp:52 | decoding the four little-endian bytes of any 32-bit value gives the value back |
| `LittleEndian.IntToBytesRoundTrip` | asio_net/src/boost_main.cpp:50-53 | every 4-byte buffer is the encoding of what it decodes to: the decode is injective |
| `LittleEndian.ByteToIntReadsFourBytes` | asio_net/src/boost_main.cpp:50-53 | only buf[0..3] influence the result |
| `WireFrame.ParseFrame` | asio_net/src/boost_main.cpp:222-296 | fewer than 4 type bytes and a type other than 1 are errors; on success the bytes consumed are exactly type, timestamp, length and payload as a sender encodes them, followed by the untouched rest |
| `WireFrame.EncodeFrame` | asio_net/src/boost_main.cpp:222-291 | a frame occupies 12 + length bytes |
| `WireFrame.HeaderFieldsReencode` | asio_net/src/boost_main.cpp:223-282 | each 4-byte header field is the encoding of the value decoded from it |
| `WireFrame.FrameRoundTrip` | asio_net/src/boost_main.cpp:222-296 | reading an encoded frame gives the frame and leaves the following bytes as they were |
| `WireFrame.UnsupportedTypeReadsNothingMore` | asio_net/src/boost_main.cpp:234-239 | a type tag other than 1 ends the loop whatever follows it, before timestamp or length are read (same at asio_net2/src/boost_main.cpp:150-155) |
| `WireFrame.ShortReadsAreErrors` | asio_net/src/boost_main.cpp:254-291 | a short timestamp, a short length field, or fewer payload bytes than the length are each an error |
| `WireFrame.ReceiveAll` | asio_net/src/boost_main.cpp:219-296 | the receive loop returns well-formed frames whose encodings form a prefix of the stream |
| `WireFrame.ReceiveAllCreatesOneContext` | asio_net/src/boost_main.cpp:241-251 | the loop creates at most one decoder context: none when one exists, otherwise one exactly when the first type tag is 1; no frame is decoded without a context |
| `WireFrame.ReceiveAllStops` | asio_net/src/boost_main.cpp:219-296 | the loop stops exactly at the first frame that fails to parse: the bytes after the received frames parse to the error that ended the loop |
| `WireFrame.ReceiveAllRoundTrip` | asio_net/src/boost_main.cpp:219-296 | a stream of encoded frames is received frame by frame and the loop ends only when no type tag is left |
| `WinsockReceive.ReadLength` | asio_net/src/winsock_main.cpp:184-196 | the header is accepted exactly when 4 bytes arrived, the top byte is below 0x80 and not all bytes are zero, i.e. the decoded length is > 0 |
| `WinsockReceive.Recv` | asio_net/src/winsock_main.cpp:204 | a `recv` never returns more than was asked for; a positive offer yields progress |
| `WinsockReceive.LoopAsWritten` | asio_net/src/winsock_main.cpp:201-211 | the loop as written never overshoots `length`, and whenever it exits `bufLen == length`, so the check after it is dead; with positive chunks it makes a byte of progress per call |
| `WinsockReceive.PeerCloseNeverEnds` | asio_net/src/winsock_main.cpp:201-205 | when every `recv` returns 0 the loop makes no progress after any number of calls |
| `WinsockReceive.SocketErrorUnderflows` | asio_net/src/winsock_main.cpp:201-205 | a `recv` result of -1 makes `bufLen` negative |
| `WinsockReceive.ReceivePayload` | asio_net/src/winsock_main.cpp:198-211 | corrected loop: 0 <= bufLen <= length throughout; complete exactly when bufLen == length; the first result <= 0 ends it, every result added before it was positive, and bufLen is what the loop as written reaches on those results, for any script of `recv` results; with positive chunks it agrees with the loop as written and completes once enough chunks come |
| `WinsockReceive.ReadWinsockFrame` | asio_net/src/winsock_main.cpp:184-211 | on success the stream is the length header, a non-empty payload and the rest |
| `WinsockReceive.WinsockFrameRoundTrip` | asio_net/src/winsock_main.cpp:184-211 | a non-empty payload behind its length is read back exactly |
| `WinsockReceive.EmptyFrameEndsSession` | asio_net/src/winsock_main.cpp:192-196 | a zero length is rejected before any payload is read |
| `WinsockReceive.ReceiveSession` | asio_net/src/winsock_main.cpp:165-296 | the session loop returns non-empty payloads whose encodings form a prefix of the stream; each pass creates the decoder context only while none exists (lines 172-182), so a connection creates exactly one, or none when one exists |
| `WinsockReceive.ReceiveSessionStops` | asio_net/src/winsock_main.cpp:165-296 | the session stops exactly at the first frame that fails to read: the bytes after the received payloads read to the error that ended the session |
| `WinsockReceive.SessionRoundTrip` | asio_net/src/winsock_main.cpp:165-296 | non-empty payloads written behind their lengths are read back one by one, and the session ends only when no length header is left |
| `Decimal.DigitChar` | asio_net/src/boost_main.cpp:145 | a digit character and its value correspond |
| `Decimal.NatToString` | asio_net/src/boost_main.cpp:145 | `to_string` of a non-negative value is a non-empty run of digits without a leading zero |
| `Decimal.IntToString` | asio_net/src/boost_main.cpp:145 | `to_string` starts with a digit or '-' |
| `Decimal.NatToStringValue` | asio_net/src/boost_main.cpp:145 | the digits written by `to_string` denote the value |
| `Decimal.ScanInteger` | asio_net/src/boost_main.cpp:124-125 | a scan found splits the text into white space, sign, a maximal non-empty digit run and the ignored tail |
| `Decimal.ScanIntegerComplete` | asio_net/src/boost_main.cpp:124-125 | conversely, any such split of the text is the one the scan finds, so the split is unique |
| `Decimal.Stoi` | asio_net/src/boost_main.cpp:124-125 | `stoi` fails with invalid_argument exactly when no digits follow space and sign; when they do, it succeeds exactly when the scanned value is in `int` range and otherwise fails with out_of_range; a success is the scanned value |
| `Decimal.StoiOfSplit` | asio_net/src/boost_main.cpp:124-125 | for any split into space, sign, digits and a non-digit tail, `stoi` returns the value when it is in `int` range and out_of_range otherwise |
| `Decimal.ReadInt` | asio_net/src/boost_main.cpp:110-114 | `get_optional<int>` succeeds exactly when a number in `int` range is followed by nothing but white space, and then agrees with `stoi` |
| `Decimal.ReadIntOfSplit` | asio_net/src/boost_main.cpp:110-114 | for any split with an in-range value, `get_optional<int>` yields the value when the tail is all white space and nothing otherwise |
| `Decimal.ScanIntToString` | asio_net/src/boost_main.cpp:124-125 | the scan of `to_string(n)` and a non-digit tail finds no white space, the sign, exactly the digits written, and the tail |
| `Decimal.StoiOfIntToString` | asio_net/src/boost_main.cpp:124-125 | `stoi` reads back any `to_string` output and ignores a following non-digit tail |
| `Decimal.ReadIntOfIntToString` | asio_net/src/boost_main.cpp:110-114 | `get_optional<int>` reads back what `put` of an int wrote |
| `Decimal.ScanSkipsSpace` | asio_net/src/boost_main.cpp:124-125 | a leading white-space character changes neither whether a number is found nor its value |
| `Decimal.StoiSkipsSpace` | asio_net/src/boost_main.cpp:124-125 | leading white space does not change what `stoi` reads |
| `ResizeConfig.Split` | asio_net/src/boost_main.cpp:121 | `split` yields one piece more than there are 'x's, no piece contains 'x', and joining gives the value back |
| `ResizeConfig.ParseResize` | asio_net/src/boost_main.cpp:115-137 | the result is the prior size or a pair of positive 32-bit values |
| `ResizeConfig.ParseResizeIsAccepted` | asio_net/src/boost_main.cpp:120-130 | the value is taken exactly when it has one 'x' and `stoi` reads a positive number on each side; otherwise the prior size stays |
| `ResizeConfig.FormatParseRoundTrip` | asio_net/src/boost_main.cpp:120-145 | for W, H > 0, the string `writeIniFile` writes parses back to (W, H) whatever the prior size |
| `ResizeConfig.ParseFormatted` | asio_net/src/boost_main.cpp:120-145 | a written size that is not positive is refused when read, leaving the prior size |
| `ResizeConfig.WriteThenReadKeepsSize` | asio_net/src/boost_main.cpp:115-145 | writing the current size and reading it again changes nothing, the default -1x-1 included |
| `ResizeConfig.ResizeOnlyWhenAccepted` | asio_net/src/boost_main.cpp:372-375 | the default -1/-1 (lines 47-48) disables resizing; after reading a value, resizing is on exactly when the value was accepted |
| `IniConfig.ReadEndpoint` | asio_net2/src/boost_main.cpp:53-75 | an unreadable file changes nothing; a field changes only to the value of its key, the port exactly when that value reads as an int, and then to that int |
| `IniConfig.WriteEndpoint` | asio_net2/src/boost_main.cpp:77-83 | the written file has exactly the address and port keys |
| `IniConfig.EndpointRoundTrip` | asio_net2/src/boost_main.cpp:53-83 | reading what was written restores address and port (defaults 127.0.0.1:5550 at lines 40-41) |
| `IniConfig.ReadSettings` | asio_net/src/boost_main.cpp:93-138 | the FFmpeg client's reader: same endpoint rule; with a `resize` key the size is what the resize parser makes of its value, without one it stays |
| `IniConfig.WriteSettings` | asio_net/src/boost_main.cpp:140-147 | the written file has exactly the address, port and resize keys |
| `IniConfig.SettingsRoundTrip` | asio_net/src/boost_main.cpp:93-147 | reading what was written restores address and port, and the size when it is positive |
| `IniConfig.RestartKeepsSettings` | asio_net/src/boost_main.cpp:152-157 | a start reading the file the previous start wrote recovers its settings |
| `MsdkMacros.ClearLowBits` | asio_net2/include/intel_video_decoder.h:77 | `& ~31` on the low byte rounds it down to a multiple of 32 |
| `MsdkMacros.MaskRoundsDown` | asio_net2/include/intel_video_decoder.h:77 | `& ~31` on a whole 32-bit word rounds its unsigned value down to a multiple of 32 |
| `MsdkMacros.Align32OfMask` | asio_net2/include/intel_video_decoder.h:77 | the bit-level macro `(X + 31) & ~31` on the wrapped sum gives `Align32` |
| `MsdkMacros.Align32` | asio_net2/include/intel_video_decoder.h:77 | the result is a multiple of 32; without wrap-around it lies in [X, X + 32); when X + 31 wraps it is 0 |
| `MsdkMacros.Align32IsLeast` | asio_net2/include/intel_video_decoder.h:77 | no multiple of 32 lies between X and the result |
| `MsdkMacros.Align32Idempotent` | asio_net2/include/intel_video_decoder.h:77 | aligning an aligned value returns it |
| `MsdkMacros.Align16` | asio_net2/include/intel_video_decoder.h:78 | the result is a multiple of 16 in [v, v + 16) |
| `MsdkMacros.Align16IsLeast` | asio_net2/include/intel_video_decoder.h:78 | no multiple of 16 lies between v and the result |
| `MsdkMacros.Align16Idempotent` | asio_net2/include/intel_video_decoder.h:78 | aligning an aligned value returns it |
| `MsdkMacros.Max` | asio_net2/include/intel_video_decoder.h:80 | the result is >= both arguments and equal to one of them |
| `MsdkMacros.IgnoreStatus` | asio_net2/include/intel_video_decoder.h:74 | P becomes MFX_ERR_NONE exactly when P == X, otherwise it is unchanged |
| `MsdkMacros.IgnoreThenBreak` | asio_net2/include/intel_video_decoder.h:74-75 | after ignoring X, break-on-error fires exactly for errors other than X; filtering twice equals once |
| `MsdkMacros.SafeDeleteArray` | asio_net2/include/intel_video_decoder.h:76 | the pointer is null afterwards; a live array is deleted once, a null pointer is left alone |
| `MsdkMacros.SafeRelease` | asio_net2/include/intel_video_decoder.h:79 | the pointer is null afterwards; a live object is released once, a null pointer is left alone |
| `MsdkMacros.SafeDisposalIdempotent` | asio_net2/include/intel_video_decoder.h:76-79 | applying either macro twice is the same as once |
| `QsvDecoder.Construct` | asio_net2/include/intel_video_decoder.h:117-120 | a new decoder reports getWidth() == -1, getHeight() == -1, isInit() == false (getters at lines 99-101) |
| `QsvClient.Shown` | asio_net2/src/boost_main.cpp:250-264 | the number of frames shown is the length of the positive prefix of `getFrame` results |
| `QsvClient.PollFrames` | asio_net2/src/boost_main.cpp:250-264 | `getFrame` is called once more than frames are shown; every shown result was > 0 and the last one is <= 0 |
| `QsvClient.Handle` | asio_net2/src/boost_main.cpp:221-264 | `decodeHeader` is called iff not initialised and a negative result skips the packet; once the header is ready `decode` is called; a non-zero decode skips size check and `getFrame`; after a decode the tracked size is the decoder's and the buffer is reallocated to w*h*3 exactly when the size changed; every `getFrame` gets the current buffer |
| `QsvClient.HandlePollsLikePollFrames` | asio_net2/src/boost_main.cpp:250-264 | after a successful decode `Handle` shows the frames `PollFrames` shows and calls `getFrame` exactly once more than it shows; after a failed header or decode it never calls `getFrame` |
| `QsvClient.HandleCallOrder` | asio_net2/src/boost_main.cpp:221-264 | the calls come in the source's order: `decodeHeader` when not initialised (and nothing else when it fails), then exactly one `decode`, then only `getFrame` polls |
| `QsvClient.HandleKeepsBufferFit` | asio_net2/src/boost_main.cpp:239-249 | an allocated buffer keeps holding exactly width*height*3 bytes of the tracked size |
| `QsvClient.FirstDecodeAllocates` | asio_net2/src/boost_main.cpp:239-250 | starting from a new decoder's -1x-1, the first decode reporting a real size allocates the buffer before the first `getFrame` |
| `QsvClient.Connection` | asio_net2/src/boost_main.cpp:135-267 | at most one decoder per connection, created exactly when the first type tag is 1; the buffer invariant holds across the whole connection |
| `QsvClient.ConnectionFollowsReceiveAll` | asio_net2/src/boost_main.cpp:135-267 | while `initialize()` succeeds and the decoder keeps answering, the payloads handed to `Handle` are those of the frames the receive loop reads, in order; the decoders created and the error that ends the connection are the receive loop's |

## Findings

| source | as written | input that shows it | evidently intended | confidence | as-written member | corrected member |
|---|---|---|---|---|---|---|
| asio_net/src/winsock_main.cpp:201-211 | `bufLen += recv(...)` adds whatever `recv` returns, also 0 (peer closed) and -1 (SOCKET_ERROR); the `bufLen != length` branch after the loop can never run | length header 10, then 4 payload bytes, then the peer closes: every further `recv` returns 0 and the loop spins forever (`PeerCloseNeverEnds`); a single -1 makes `bufLen` negative so the next `recv` writes before `recvBuf` (`SocketErrorUnderflows`) | a `recv` result <= 0 ends the loop, and the error branch after it frees the buffer and ends the session | high; not executed | `WinsockReceive.LoopAsWritten` | `WinsockReceive.ReceivePayload` |

`WinsockReceive.ReadWinsockFrame` uses the corrected behaviour: a stream
that ends inside a payload yields `PeerClosed`, the corrected loop's
`ConnectionLost`.

## Left out

- Sockets: connect, reconnect, sleep, socket options and `closeWinSocket`, in all three clients. The received bytes are the input sequence instead.
- FFmpeg, OpenCV and Media SDK calls (`avcodec_*`, `av_packet_*`, `sws_*`, `av_image_*`, `cv::imshow`, `cv::resize`, `cv::cvtColor`, `MFXVideoDECODE`): foreign libraries. This covers the FFmpeg clients' decode-and-display inner loop, `cv::resize` with its `double` ratios, and the exit on the Esc key in all three clients (`cv::waitKey(1) == 27` clears `loopFlag`: asio_net2/src/boost_main.cpp:258-261, asio_net/src/boost_main.cpp:377, asio_net/src/winsock_main.cpp:287): the receive loops are modelled as running until a read fails.
- WireFrame.ReceiveAll, WinsockReceive.ReceiveSession: the FFmpeg clients' decoder setup is assumed to succeed. A NULL from `decoder_initialize()` ends `main` with -1 (asio_net/src/boost_main.cpp:245-249, asio_net/src/winsock_main.cpp:176-180), and a `pkt->size != length` after `av_packet_from_data` breaks the loop (asio_net/src/boost_main.cpp:301-305, asio_net/src/winsock_main.cpp:216-220); both depend on FFmpeg, so the model counts the context and keeps reading. The Quick Sync client's failing `initialize()` is modelled, as `InitFailed`.
- `IntelQsvH264Decoder` method bodies (`initialize`, `uninitialize`, `decodeHeader`, `decode`, `decode_get`, `getFrame`, `drainFrame`) and the private helpers `GetFreeSurfaceIndex`, `StoreBitstreamData`, `getResolution`, `GetRawFrame`: they are only declared. The decoder is an oracle, and no surface-pool, sync-point or bitstream rule is assumed. The constructor `IntelQsvH264Decoder()` is only declared too (asio_net2/include/intel_video_decoder.h:89): `QsvDecoder.Construct` assumes it keeps the in-class initialisers of lines 117-120, and `QsvClient.FirstDecodeAllocates` assumes `initialize()` leaves width and height at -1.
- `asio_net2/include/YuvRgbConvert.h` and both `intel_qsv_decoder_api.h`: declarations only. The global instance vector with its mutex is concurrency without a visible body.
- Reading and writing the INI file (`read_ini`, `write_ini`, trimming, sections): only the string values of the keys are modelled.
- `printf` logging, the debug print of the timestamp, `MSDK_FOPEN`, `MSDK_SLEEP`, `msdk_sscanf`, `msdk_strcopy`, `MSDK_DEC_WAIT_INTERVAL`, `MAX_BUFFER_BYTES`: output or platform glue, or constants used only by bodies that are not visible.
- `malloc`/`free` of the payload buffer: several error paths leave it allocated, and that is not modelled.
- LittleEndian.ByteToInt: `<< 24` of a byte >= 0x80 overflows `int`, which is undefined in C++11 and implementation-defined in C++14 and C++17; the model takes the two's-complement result every compiler produces.
- MsdkMacros.Align16: requires value + 15 not to overflow `int`, and takes `>>` of a negative value as an arithmetic shift (implementation-defined before C++20, which defines it as an arithmetic shift). The `<< 4` of a negative value is undefined before C++20; the model takes the two's-complement result, a multiplication by 16.
- WinsockReceive.ReadLength: the single 4-byte `recv` is modelled by the bytes it delivered, so a TCP short read counts as a short header, as in the source. No claim is made about when the network splits a header.
- WinsockReceive.ReadWinsockFrame: assumes a socket that hands over every byte it still has. Arbitrary chunking is modelled only by `ReceivePayload`'s offers.
- QsvClient.Handle: the buffer size `sizeof(uint8_t) * width * height * 3` is computed in `size_t` by the source. The model uses unbounded integers, so neither the wrap-around nor a negative size converted to `size_t` is modelled.
- QsvClient.Connection: the decoder's answers are a finite list; when it runs out the model stops with `RepliesExhausted`, and a decoder that never answers `getFrame` with <= 0 is not modelled.
- Decimal.ReadInt: follows the extraction that boost's default translator performs (skip white space, sign, digits, only white space after, in `int` range). The library itself is not part of this model.

=== FILE: decimal.dfy ===
/** Decimal text of 32-bit integers as the C++ runtime reads and writes it:
    `std::to_string`, `std::stoi` (base 10) and the stream extraction
    `boost::property_tree` uses to read an `int` value (`get_optional<int>`). */
module Decimal {
  import opened Wrappers
  import opened LittleEndian

  predicate IsDigit(c: char)
  {
    '0' <= c <= '9'
  }

  /** `isspace` in the "C" locale: space, \t, \n, \v, \f, \r. */
  predicate IsSpace(c: char)
  {
    c == ' ' || '\t' <= c <= '\r'
  }

  predicate AllDigits(s: string)
  {
    forall i :: 0 <= i < |s| ==> IsDigit(s[i])
  }

  predicate AllSpace(s: string)
  {
    forall i :: 0 <= i < |s| ==> IsSpace(s[i])
  }

  function DigitValue(c: char): (d: nat)
    requires IsDigit(c)
    ensures d < 10
  {
    c as int - '0' as int
  }

  function DigitChar(d: nat): (c: char)
    requires d < 10
    ensures IsDigit(c) && DigitValue(c) == d
  {
    ('0' as int + d) as char
  }

  /** The value of a run of decimal digits. */
  function DigitsValue(ds: string): nat
    requires AllDigits(ds)
  {
    if |ds| == 0 then 0 else DigitsValue(ds[..|ds| - 1]) * 10 + DigitValue(ds[|ds| - 1])
  }

  /** `std::to_string` of a non-negative value: its decimal digits, without
      leading zeros. */
  function NatToString(n: nat): (s: string)
    ensures 0 < |s| && AllDigits(s)
    ensures 1 < |s| ==> s[0] != '0'
  {
    if n < 10 then [DigitChar(n)] else NatToString(n / 10) + [DigitChar(n % 10)]
  }

  function Magnitude(i: int): nat
  {
    if i < 0 then -i else i
  }

  function SignText(i: int): string
  {
    if i < 0 then "-" else ""
  }

  /** `std::to_string(int)`: a '-' for a negative value, then the digits of
      its magnitude. */
  function IntToString(i: int): (s: string)
    ensures 0 < |s| && (IsDigit(s[0]) || s[0] == '-')
  {
    SignText(i) + NatToString(Magnitude(i))
  }

  lemma {:induction false} NatToStringValue(n: nat)
    ensures DigitsValue(NatToString(n)) == n
  {
    if n >= 10 {
      var s := NatToString(n);
      NatToStringValue(n / 10);
      assert s[..|s| - 1] == NatToString(n / 10);
    }
  }

  /** The length of the longest prefix of `s` made of digits. */
  function DigitRun(s: string): (k: nat)
    ensures k <= |s|
    ensures AllDigits(s[..k])
    ensures k < |s| ==> !IsDigit(s[k])
  {
    if |s| == 0 || !IsDigit(s[0]) then 0 else 1 + DigitRun(s[1..])
  }

  /** The length of the longest prefix of `s` made of white space. */
  function SpaceRun(s: string): (k: nat)
    ensures k <= |s|
    ensures AllSpace(s[..k])
    ensures k < |s| ==> !IsSpace(s[k])
  {
    if |s| == 0 || !IsSpace(s[0]) then 0 else 1 + SpaceRun(s[1..])
  }

  lemma {:induction false} DigitRunOfDigits(ds: string, tail: string)
    requires AllDigits(ds)
    requires |tail| == 0 || !IsDigit(tail[0])
    ensures DigitRun(ds + tail) == |ds|
  {
    if |ds| > 0 {
      assert (ds + tail)[1..] == ds[1..] + tail;
      DigitRunOfDigits(ds[1..], tail);
    }
  }

  /** No sign, or a single '-' or '+'. */
  predicate IsSign(sign: string)
  {
    |sign| <= 1 && (|sign| == 1 ==> sign[0] == '-' || sign[0] == '+')
  }

  /** A decimal integer found at the front of a text: leading white space, an
      optional sign, the longest run of digits, and whatever follows. */
  datatype Scanned = Scanned(space: string, sign: string, digits: string, tail: string) {
    function Value(): int
      requires AllDigits(digits)
    {
      if |sign| == 1 && sign[0] == '-' then -(DigitsValue(digits) as int) else DigitsValue(digits)
    }
  }

  /** `sc` is a reading of `s`: white space, a sign, a maximal non-empty
      digit run and the rest, in that order and covering all of `s`. */
  predicate Splits(s: string, sc: Scanned)
  {
    && s == sc.space + sc.sign + sc.digits + sc.tail
    && AllSpace(sc.space)
    && IsSign(sc.sign)
    && 0 < |sc.digits| && AllDigits(sc.digits)
    && (|sc.tail| == 0 || !IsDigit(sc.tail[0]))
  }

  /** An optional sign, the longest run of digits and what follows, at the
      very front of `t`: None when no digit follows the sign. */
  function ScanSigned(t: string): (r: Option<Scanned>)
    ensures r.Some? ==> r.value.space == "" && Splits(t, r.value)
  {
    var j := if 0 < |t| && (t[0] == '-' || t[0] == '+') then 1 else 0;
    var u := t[j..];
    var k := DigitRun(u);
    if k == 0 then None
    else
      assert t == "" + t[..j] + u[..k] + u[k..];
      Some(Scanned("", t[..j], u[..k], u[k..]))
  }

  /** White space in front of a reading of the rest of a text makes a
      reading of the whole text. */
  lemma AddSpace(s: string, i: nat, sc: Scanned)
    requires i <= |s| && AllSpace(s[..i])
    requires sc.space == "" && Splits(s[i..], sc)
    ensures Splits(s, sc.(space := s[..i]))
  {
    var t := s[i..];
    assert t == sc.sign + sc.digits + sc.tail;
    assert s == s[..i] + t;
    assert s[..i] + (sc.sign + sc.digits + sc.tail) == s[..i] + sc.sign + sc.digits + sc.tail;
  }

  /** The scan `strtol` and `operator>>` share: leading white space, then
      a signed number; None when no digit follows the white space and the
      sign. */
  function ScanInteger(s: string): (r: Option<Scanned>)
    ensures r.Some? ==> Splits(s, r.value)
  {
    var i := SpaceRun(s);
    match ScanSigned(s[i..])
    case None => None
    case Some(n) =>
      AddSpace(s, i, n);
      Some(n.(space := s[..i]))
  }

  datatype StoiError = InvalidArgument | OutOfRange

  /** `std::stoi(s)`: no digits throws `invalid_argument`, a value outside
      `int` throws `out_of_range`; characters after the digits are ignored. */
  function Stoi(s: string): (r: Result<Int32, StoiError>)
    ensures r.Success? ==> ScanInteger(s).Some? && r.value == ScanInteger(s).value.Value()
    ensures ScanInteger(s).None? ==> r == Failure(InvalidArgument)
    ensures ScanInteger(s).Some? ==> (r.Success? <==> -TwoTo31 <= ScanInteger(s).value.Value() < TwoTo31)
    ensures ScanInteger(s).Some? && r.Failure? ==> r.error == OutOfRange
  {
    match ScanInteger(s)
    case None => Failure(InvalidArgument)
    case Some(sc) =>
      var v := sc.Value();
      if -TwoTo31 <= v < TwoTo31 then Success(v) else Failure(OutOfRange)
  }

  /** `get_optional<int>`: the stream extraction must succeed and only white
      space may follow the number. */
  function ReadInt(s: string): (r: Option<Int32>)
    ensures r.Some? ==> ScanInteger(s).Some? && AllSpace(ScanInteger(s).value.tail)
    ensures r.Some? ==> Stoi(s) == Success(r.value)
    ensures ScanInteger(s).Some? && AllSpace(ScanInteger(s).value.tail) && Stoi(s).Success? ==> r.Some?
  {
    match ScanInteger(s)
    case None => None
    case Some(sc) =>
      var v := sc.Value();
      if AllSpace(sc.tail) && -TwoTo31 <= v < TwoTo31 then Some(v) else None
  }

  /** A sign, a digit run and a tail that does not continue the run are
      scanned as exactly those parts. */
  lemma ScanSignedOf(sign: string, ds: string, tail: string)
    requires IsSign(sign)
    requires 0 < |ds| && AllDigits(ds)
    requires |tail| == 0 || !IsDigit(tail[0])
    ensures ScanSigned(sign + ds + tail) == Some(Scanned("", sign, ds, tail))
  {
    var t := sign + ds + tail;
    var j := |sign|;
    assert j == 0 ==> 0 < |t| && t[0] == ds[0] && IsDigit(t[0]);
    assert t[j..] == ds + tail;
    assert t[..j] == sign;
    DigitRunOfDigits(ds, tail);
    assert (ds + tail)[..|ds|] == ds;
    assert (ds + tail)[|ds|..] == tail;
  }

  lemma {:induction false} SpaceRunOf(space: string, rest: string)
    requires AllSpace(space)
    requires |rest| == 0 || !IsSpace(rest[0])
    ensures SpaceRun(space + rest) == |space|
  {
    if |space| > 0 {
      assert (space + rest)[1..] == space[1..] + rest;
      SpaceRunOf(space[1..], rest);
    }
  }

  /** The scan finds every reading: a text that splits into white space, a
      sign, a maximal digit run and a tail is scanned as exactly that. */
  lemma ScanIntegerComplete(s: string, sc: Scanned)
    requires Splits(s, sc)
    ensures ScanInteger(s) == Some(sc)
  {
    var rest := sc.sign + sc.digits + sc.tail;
    assert s == sc.space + rest;
    assert 0 < |rest| && !IsSpace(rest[0]) by {
      if |sc.sign| == 0 {
        assert rest[0] == sc.digits[0];
      } else {
        assert rest[0] == sc.sign[0];
      }
    }
    SpaceRunOf(sc.space, rest);
    assert s[|sc.space|..] == rest;
    assert s[..|sc.space|] == sc.space;
    ScanSignedOf(sc.sign, sc.digits, sc.tail);
  }

  /** What `std::stoi` makes of a text, given how the text splits. */
  lemma StoiOfSplit(s: string, sc: Scanned)
    requires Splits(s, sc)
    ensures -TwoTo31 <= sc.Value() < TwoTo31 ==> Stoi(s) == Success(sc.Value())
    ensures !(-TwoTo31 <= sc.Value() < TwoTo31) ==> Stoi(s) == Failure(OutOfRange)
  {
    ScanIntegerComplete(s, sc);
  }

  /** What `get_optional<int>` makes of a text, given how the text splits. */
  lemma ReadIntOfSplit(s: string, sc: Scanned)
    requires Splits(s, sc) && -TwoTo31 <= sc.Value() < TwoTo31
    ensures ReadInt(s) == if AllSpace(sc.tail) then Some(sc.Value()) else None
  {
    ScanIntegerComplete(s, sc);
  }

  /** Text that does not start with white space is scanned as a signed
      number straight away. */
  lemma ScanWithoutSpace(s: string)
    requires 0 < |s| && !IsSpace(s[0])
    ensures ScanInteger(s) == ScanSigned(s)
  {
    assert SpaceRun(s) == 0;
    assert s[0..] == s;
  }

  /** The scan of `std::to_string(n)` followed by a tail that does not start
      with a digit: no white space, the sign, the digits, the tail. */
  lemma ScanIntToString(n: int, tail: string)
    requires |tail| == 0 || !IsDigit(tail[0])
    ensures ScanInteger(IntToString(n) + tail) == Some(Scanned("", SignText(n), NatToString(Magnitude(n)), tail))
  {
    var s := SignText(n) + NatToString(Magnitude(n)) + tail;
    assert IntToString(n) + tail == s;
    ScanSignedOf(SignText(n), NatToString(Magnitude(n)), tail);
    ScanWithoutSpace(s);
  }

  /** That scan denotes n. */
  lemma ScannedIntValue(n: int, tail: string)
    ensures Scanned("", SignText(n), NatToString(Magnitude(n)), tail).Value() == n
  {
    NatToStringValue(Magnitude(n));
  }

  /** `std::stoi` reads back what `std::to_string` wrote, and ignores
      anything after it that is not a digit. */
  lemma StoiOfIntToString(n: Int32, tail: string)
    requires |tail| == 0 || !IsDigit(tail[0])
    ensures Stoi(IntToString(n) + tail) == Success(n)
  {
    ScanIntToString(n, tail);
    ScannedIntValue(n, tail);
  }

  /** The property-tree reader reads back what the writer wrote. */
  lemma ReadIntOfIntToString(n: Int32)
    ensures ReadInt(IntToString(n)) == Some(n)
  {
    ScanIntToString(n, "");
    ScannedIntValue(n, "");
    assert IntToString(n) + "" == IntToString(n);
  }

  /** A leading white-space character changes only the white-space part of
      a scan. */
  lemma ScanSkipsSpace(c: char, s: string)
    requires IsSpace(c)
    ensures ScanInteger([c] + s).None? <==> ScanInteger(s).None?
    ensures ScanInteger(s).Some? ==> ScanInteger([c] + s).value.Value() == ScanInteger(s).value.Value()
  {
    var cs := [c] + s;
    assert cs[1..] == s;
    assert SpaceRun(cs) == 1 + SpaceRun(s);
    assert cs[SpaceRun(cs)..] == s[SpaceRun(s)..];
  }

  /** `std::stoi` skips leading white space. */
  lemma StoiSkipsSpace(c: char, s: string)
    requires IsSpace(c)
    ensures Stoi([c] + s) == Stoi(s)
  {
    ScanSkipsSpace(c, s);
  }
}

=== FILE: ini_config.dfy ===
/** The settings both boost clients load at start-up (`readIniFile`) and
    store again right after (`writeIniFile`), at the level of the key/value
    pairs of the INI file: reading and writing the file itself is not part
    of this model. */
module IniConfig {
  import opened Wrappers
  import opened LittleEndian
  import opened Decimal
  import opened ResizeConfig

  /** The top-level keys of a parsed INI file and their string values. */
  type Ini = map<string, string>

  const AddrKey: string := "streamAddr"
  const PortKey: string := "streamPort"
  const ResizeKey: string := "resize"

  datatype Endpoint = Endpoint(addr: string, port: Int32)

  /** Start-up values of the FFmpeg client (asio_net). */
  const FfmpegDefaults: Endpoint := Endpoint("127.0.0.1", 8080)

  /** Start-up values of the Quick Sync client (asio_net2). */
  const QsvDefaults: Endpoint := Endpoint("127.0.0.1", 5550)

  /** `readIniFile` of the Quick Sync client.  `file` is None when `read_ini`
      threw; then nothing changes.  Each key that is present overrides its
      value; a port that does not read as an `int` is ignored. */
  function ReadEndpoint(prior: Endpoint, file: Option<Ini>): (e: Endpoint)
    ensures file.None? ==> e == prior
    ensures e.addr != prior.addr ==> file.Some? && AddrKey in file.value && e.addr == file.value[AddrKey]
    ensures e.port != prior.port ==> file.Some? && PortKey in file.value && ReadInt(file.value[PortKey]) == Some(e.port)
    ensures file.Some? && AddrKey in file.value ==> e.addr == file.value[AddrKey]
    ensures file.Some? && PortKey in file.value && ReadInt(file.value[PortKey]).Some?
            ==> e.port == ReadInt(file.value[PortKey]).value
  {
    match file
    case None => prior
    case Some(ini) =>
      var addr := if AddrKey in ini then ini[AddrKey] else prior.addr;
      var port :=
        if PortKey in ini && ReadInt(ini[PortKey]).Some? then ReadInt(ini[PortKey]).value else prior.port;
      Endpoint(addr, port)
  }

  /** `writeIniFile` of the Quick Sync client (`put` of an `int` writes the
      same digits as `std::to_string`). */
  function WriteEndpoint(e: Endpoint): (ini: Ini)
    ensures ini.Keys == {AddrKey, PortKey}
  {
    map[AddrKey := e.addr, PortKey := IntToString(e.port)]
  }

  /** The Quick Sync client reads back exactly what it wrote, whatever it
      held before. */
  lemma EndpointRoundTrip(e: Endpoint, prior: Endpoint)
    ensures ReadEndpoint(prior, Some(WriteEndpoint(e))) == e
  {
    ReadIntOfIntToString(e.port);
  }

  /** The settings of the FFmpeg client. */
  datatype Settings = Settings(endpoint: Endpoint, resize: Resize)

  const FfmpegStartup: Settings := Settings(FfmpegDefaults, Unset)

  /** `readIniFile` of the FFmpeg client: the same two keys, plus `resize`. */
  function ReadSettings(prior: Settings, file: Option<Ini>): (s: Settings)
    ensures file.None? ==> s == prior
    ensures s.endpoint == ReadEndpoint(prior.endpoint, file)
    ensures s.resize != prior.resize ==> file.Some? && ResizeKey in file.value && ResizeEnabled(s.resize)
    ensures file.Some? && ResizeKey in file.value ==> s.resize == ParseResize(file.value[ResizeKey], prior.resize)
    ensures file.Some? && ResizeKey !in file.value ==> s.resize == prior.resize
  {
    match file
    case None => prior
    case Some(ini) =>
      var resize := if ResizeKey in ini then ParseResize(ini[ResizeKey], prior.resize) else prior.resize;
      Settings(ReadEndpoint(prior.endpoint, file), resize)
  }

  /** `writeIniFile` of the FFmpeg client. */
  function WriteSettings(s: Settings): (ini: Ini)
    ensures ini.Keys == {AddrKey, PortKey, ResizeKey}
  {
    WriteEndpoint(s.endpoint)[ResizeKey := FormatResize(s.resize)]
  }

  /** Reading what the FFmpeg client wrote restores its address and port,
      and its size when that size is positive; a size that is not positive
      is written but refused, so the reader keeps its own. */
  lemma SettingsRoundTrip(s: Settings, prior: Settings)
    requires -TwoTo31 <= s.resize.width < TwoTo31 && -TwoTo31 <= s.resize.height < TwoTo31
    ensures ReadSettings(prior, Some(WriteSettings(s)))
            == Settings(s.endpoint, if ResizeEnabled(s.resize) then s.resize else prior.resize)
  {
    var ini := WriteSettings(s);
    assert ini[AddrKey] == s.endpoint.addr;
    assert ini[PortKey] == IntToString(s.endpoint.port);
    ReadIntOfIntToString(s.endpoint.port);
    ParseFormatted(s.resize, prior.resize);
  }

  /** Each start reads the file the previous start wrote: the settings
      survive the cycle. */
  lemma RestartKeepsSettings(s: Settings)
    requires -TwoTo31 <= s.resize.width < TwoTo31 && -TwoTo31 <= s.resize.height < TwoTo31
    requires ResizeEnabled(s.resize) || s.resize == Unset
    ensures ReadSettings(FfmpegStartup, Some(WriteSettings(s))) == s
  {
    SettingsRoundTrip(s, FfmpegStartup);
  }
}

=== FILE: little_endian.dfy ===
/** The 4-byte little-endian integer decode `byteToInt` shared by both boost
    clients, and the identical inline length decode of the winsock client.

    The C expression works on `char` (signed on the targeted platforms): every
    byte is promoted to `int` with sign extension, masked with `0xff`, shifted
    into place and or-ed together.  The bit pattern is computed here with the
    same operations on `bv32`; the resulting `int` is its two's-complement
    reading (a byte >= 0x80 shifted by 24 lands in the sign bit). */
module LittleEndian {

  /** The values of a 32-bit `int`. */
  type Int32 = x: int | -0x8000_0000 <= x < 0x8000_0000

  const TwoTo32: int := 0x1_0000_0000
  const TwoTo31: int := 0x8000_0000

  /** Integer promotion of a signed `char` holding the byte `b`. */
  function Promote(b: bv8): bv32
  {
    if b & 0x80 != 0 then 0xFFFF_FF00 | b as bv32 else b as bv32
  }

  /** The bit pattern of `((b3 & 0xff) << 24) | ((b2 & 0xff) << 16) | ((b1 & 0xff) << 8) | (b0 & 0xff)`. */
  function PatternOf(b0: bv8, b1: bv8, b2: bv8, b3: bv8): bv32
  {
    ((Promote(b3) & 0xff) << 24) | ((Promote(b2) & 0xff) << 16) | ((Promote(b1) & 0xff) << 8) | (Promote(b0) & 0xff)
  }

  /** Byte `k` (k = 0 is the least significant) of a 32-bit pattern. */
  function ByteOf(w: bv32, k: nat): bv8
    requires k < 4
  {
    if k == 0 then (w & 0xff) as bv8
    else if k == 1 then ((w >> 8) & 0xff) as bv8
    else if k == 2 then ((w >> 16) & 0xff) as bv8
    else (w >> 24) as bv8
  }

  /** The unsigned value of four little-endian bytes. */
  function Unsigned(b0: bv8, b1: bv8, b2: bv8, b3: bv8): (u: int)
    ensures 0 <= u < TwoTo32
  {
    b0 as int + 0x100 * b1 as int + 0x1_0000 * b2 as int + 0x100_0000 * b3 as int
  }

  /** The two's-complement reading of a 32-bit unsigned value. */
  function TwosComplement(u: int): Int32
    requires 0 <= u < TwoTo32
  {
    if u < TwoTo31 then u else u - TwoTo32
  }

  /** The `int` a 32-bit pattern holds. */
  function Signed(w: bv32): Int32
  {
    TwosComplement(Unsigned(ByteOf(w, 0), ByteOf(w, 1), ByteOf(w, 2), ByteOf(w, 3)))
  }

  /** Masking with 0xff removes exactly what sign extension added. */
  lemma MaskUndoesPromotion(b: bv8)
    ensures Promote(b) & 0xff == b as bv32
  {
  }

  /** Without the mask a byte >= 0x80 would set every higher bit. */
  lemma UnmaskedPromotionLeaks()
    ensures Promote(0x80) != 0x80 as bv32
    ensures Promote(0x80) >> 8 == 0xFF_FFFF
  {
  }

  /** The four bytes of the pattern are the four input bytes, in order. */
  lemma PatternBytes(b0: bv8, b1: bv8, b2: bv8, b3: bv8)
    ensures ByteOf(PatternOf(b0, b1, b2, b3), 0) == b0
    ensures ByteOf(PatternOf(b0, b1, b2, b3), 1) == b1
    ensures ByteOf(PatternOf(b0, b1, b2, b3), 2) == b2
    ensures ByteOf(PatternOf(b0, b1, b2, b3), 3) == b3
  {
    MaskUndoesPromotion(b0);
    MaskUndoesPromotion(b1);
    MaskUndoesPromotion(b2);
    MaskUndoesPromotion(b3);
    var w := ((b3 as bv32) << 24) | ((b2 as bv32) << 16) | ((b1 as bv32) << 8) | b0 as bv32;
    assert PatternOf(b0, b1, b2, b3) == w;
  }

  /** `byteToInt(buf)`: buf[0] is the least significant byte and buf[3] the
      most significant one. */
  function ByteToInt(buf: seq<bv8>): (r: Int32)
    requires |buf| >= 4
    ensures r == TwosComplement(Unsigned(buf[0], buf[1], buf[2], buf[3]))
  {
    PatternBytes(buf[0], buf[1], buf[2], buf[3]);
    Signed(PatternOf(buf[0], buf[1], buf[2], buf[3]))
  }

  /** The sign of the decoded value is the top bit of buf[3]. */
  lemma ByteToIntSign(buf: seq<bv8>)
    requires |buf| >= 4
    ensures ByteToInt(buf) < 0 <==> buf[3] >= 0x80
  {
    assert buf[3] >= 0x80 <==> buf[3] as int >= 0x80;
  }

  /** Appending a low bit to a byte whose top bit is clear doubles it and
      adds the bit. */
  lemma ShiftInBit(h: bv8, bit: bv8)
    requires h < 0x80 && bit < 2
    ensures ((h << 1) | bit) as int == 2 * (h as int) + bit as int
  {
  }

  /** The byte holding a value 0..255, built bit by bit from the top. */
  function ToByte(x: int): (b: bv8)
    requires 0 <= x < 0x100
    ensures b as int == x
  {
    if x == 0 then 0
    else
      var high := ToByte(x / 2);
      var bit: bv8 := if x % 2 == 1 then 1 else 0;
      assert high < 0x80;
      ShiftInBit(high, bit);
      (high << 1) | bit
  }

  lemma ToByteOfByte(b: bv8)
    ensures ToByte(b as int) == b
  {
    assert (b as int) as bv8 == b;
    assert ToByte(b as int) as int == b as int;
  }

  /** The four little-endian bytes of a 32-bit `int`, as a sender writes them. */
  function IntToBytes(v: Int32): (bs: seq<bv8>)
    ensures |bs| == 4
  {
    var u0 := v % TwoTo32;
    var u1 := u0 / 0x100;
    var u2 := u1 / 0x100;
    var u3 := u2 / 0x100;
    [ToByte(u0 % 0x100), ToByte(u1 % 0x100), ToByte(u2 % 0x100), ToByte(u3)]
  }

  /** Splitting off the low byte: the quotient and remainder by 256. */
  lemma DivModBase(a: int, q: int)
    requires 0 <= a < 0x100
    ensures (a + 0x100 * q) % 0x100 == a
    ensures (a + 0x100 * q) / 0x100 == q
  {
  }

  lemma LowByteSplit(u: int)
    requires 0 <= u
    ensures u == u % 0x100 + 0x100 * (u / 0x100)
  {
  }

  lemma UnsignedOfIntToBytes(v: Int32)
    ensures var bs := IntToBytes(v); Unsigned(bs[0], bs[1], bs[2], bs[3]) == v % TwoTo32
  {
    var u0 := v % TwoTo32;
    var u1 := u0 / 0x100;
    var u2 := u1 / 0x100;
    var u3 := u2 / 0x100;
    LowByteSplit(u0);
    LowByteSplit(u1);
    LowByteSplit(u2);
  }

  lemma TwosComplementOfResidue(v: Int32)
    ensures TwosComplement(v % TwoTo32) == v
  {
  }

  /** Writing a value as four little-endian bytes and decoding them with
      `byteToInt` gives the value back. */
  lemma ByteToIntRoundTrip(v: Int32)
    ensures ByteToInt(IntToBytes(v)) == v
  {
    var bs := IntToBytes(v);
    UnsignedOfIntToBytes(v);
    assert ByteToInt(bs) == TwosComplement(v % TwoTo32);
    TwosComplementOfResidue(v);
  }

  lemma ResidueOfTwosComplement(u: int)
    requires 0 <= u < TwoTo32
    ensures TwosComplement(u) % TwoTo32 == u
  {
  }

  lemma BaseDigits(x0: int, x1: int, x2: int, x3: int)
    requires 0 <= x0 < 0x100 && 0 <= x1 < 0x100 && 0 <= x2 < 0x100 && 0 <= x3 < 0x100
    ensures var u0 := x0 + 0x100 * (x1 + 0x100 * (x2 + 0x100 * x3));
      && u0 % 0x100 == x0
      && u0 / 0x100 % 0x100 == x1
      && u0 / 0x100 / 0x100 % 0x100 == x2
      && u0 / 0x100 / 0x100 / 0x100 == x3
  {
    DivModBase(x0, x1 + 0x100 * (x2 + 0x100 * x3));
    DivModBase(x1, x2 + 0x100 * x3);
    DivModBase(x2, x3);
  }

  lemma BytesOfUnsigned(b0: bv8, b1: bv8, b2: bv8, b3: bv8)
    ensures var u0 := Unsigned(b0, b1, b2, b3);
      && u0 % 0x100 == b0 as int
      && u0 / 0x100 % 0x100 == b1 as int
      && u0 / 0x100 / 0x100 % 0x100 == b2 as int
      && u0 / 0x100 / 0x100 / 0x100 == b3 as int
  {
    var x0, x1, x2, x3 := b0 as int, b1 as int, b2 as int, b3 as int;
    assert Unsigned(b0, b1, b2, b3) == x0 + 0x100 * (x1 + 0x100 * (x2 + 0x100 * x3));
    BaseDigits(x0, x1, x2, x3);
  }

  /** Conversely, every 4-byte header is the encoding of the value it decodes
      to: the decode loses nothing. */
  lemma IntToBytesRoundTrip(buf: seq<bv8>)
    requires |buf| == 4
    ensures IntToBytes(ByteToInt(buf)) == buf
  {
    var u := Unsigned(buf[0], buf[1], buf[2], buf[3]);
    ResidueOfTwosComplement(u);
    BytesOfUnsigned(buf[0], buf[1], buf[2], buf[3]);
    var bs := IntToBytes(ByteToInt(buf));
    ToByteOfByte(buf[0]);
    ToByteOfByte(buf[1]);
    ToByteOfByte(buf[2]);
    ToByteOfByte(buf[3]);
  }

  /** Only the first four bytes of the buffer are read. */
  lemma ByteToIntReadsFourBytes(buf: seq<bv8>, other: seq<bv8>)
    requires |buf| >= 4 && |other| >= 4
    requires buf[..4] == other[..4]
    ensures ByteToInt(buf) == ByteToInt(other)
  {
    assert buf[0] == other[0] && buf[1] == other[1] && buf[2] == other[2] && buf[3] == other[3] by {
      assert buf[..4][0] == buf[0];
      assert buf[..4][1] == buf[1];
      assert buf[..4][2] == buf[2];
      assert buf[..4][3] == buf[3];
    }
  }
}

=== FILE: msdk_macros.dfy ===
/** The helper macros of asio_net2/include/intel_video_decoder.h: frame-size
    alignment, maximum, status filtering and the release-once pointer
    idioms. */
module MsdkMacros {
  import opened LittleEndian

  /** An `mfxU32`. */
  type U32 = x: int | 0 <= x < TwoTo32

  /** `& ~31` on one byte rounds it down to a multiple of 32. */
  lemma ClearLowBits(b: bv8)
    ensures (b & !31) as int == b as int / 32 * 32
  {
  }

  /** The `mfxU32` value a 32-bit word holds. */
  function Value32(w: bv32): U32
  {
    Unsigned(ByteOf(w, 0), ByteOf(w, 1), ByteOf(w, 2), ByteOf(w, 3))
  }

  /** `& ~31` on a word touches only its low byte. */
  lemma MaskBytes(w: bv32)
    ensures ByteOf(w & !31, 0) == ByteOf(w, 0) & !31
    ensures ByteOf(w & !31, 1) == ByteOf(w, 1)
    ensures ByteOf(w & !31, 2) == ByteOf(w, 2)
    ensures ByteOf(w & !31, 3) == ByteOf(w, 3)
  {
  }

  /** Rounding down to a multiple of 32 leaves a multiple of 256 alone. */
  lemma RoundDownAboveByte(b: int, rounded: int, high: int)
    requires 0 <= b < 0x100 && 0 <= high && rounded == b / 32 * 32
    ensures (b + 0x100 * high) / 32 * 32 == rounded + 0x100 * high
  {
    assert b + 0x100 * high == 32 * (b / 32 + 8 * high) + b % 32;
  }

  /** The four-byte value as its low byte plus 256 times the rest. */
  lemma LowByteAndRest(b0: bv8, b1: bv8, b2: bv8, b3: bv8)
    ensures Unsigned(b0, b1, b2, b3) == b0 as int + 0x100 * (b1 as int + 0x100 * b2 as int + 0x1_0000 * b3 as int)
  {
  }

  /** Clearing the five low bits of the low byte rounds the four-byte value
      down to a multiple of 32. */
  lemma RoundUnsigned(b0: bv8, b1: bv8, b2: bv8, b3: bv8)
    ensures Unsigned(b0 & !31, b1, b2, b3) == Unsigned(b0, b1, b2, b3) / 32 * 32
  {
    var c := b0 & !31;
    ClearLowBits(b0);
    LowByteAndRest(b0, b1, b2, b3);
    LowByteAndRest(c, b1, b2, b3);
    RoundDownAboveByte(b0 as int, c as int, b1 as int + 0x100 * b2 as int + 0x1_0000 * b3 as int);
  }

  /** `w & ~31` holds the value of `w` rounded down to a multiple of 32. */
  lemma MaskRoundsDown(w: bv32)
    ensures Value32(w & !31) == Value32(w) / 32 * 32
  {
    MaskBytes(w);
    RoundUnsigned(ByteOf(w, 0), ByteOf(w, 1), ByteOf(w, 2), ByteOf(w, 3));
  }

  /** `MSDK_ALIGN32(X)`: `((mfxU32)(X + 31)) & ~31` in 32-bit unsigned
      arithmetic: X + 31 wraps modulo 2^32 and the mask rounds it down to a
      multiple of 32 (`Align32OfMask`).  The result is always a multiple of
      32; unless X + 31 wraps around, it is the least multiple of 32 that is
      >= X. */
  function Align32(x: U32): (r: U32)
    ensures r % 32 == 0
    ensures x <= 0xFFFF_FFE0 ==> x <= r && r - x < 32
    ensures x > 0xFFFF_FFE0 ==> r == 0
  {
    var sum := (x + 31) % TwoTo32;
    sum / 32 * 32
  }

  /** Masking the word that holds the wrapped sum X + 31 with `~31` gives
      `Align32(X)`. */
  lemma Align32OfMask(x: U32, w: bv32)
    requires Value32(w) == (x + 31) % TwoTo32
    ensures Value32(w & !31) == Align32(x)
  {
    MaskRoundsDown(w);
  }

  /** No multiple of 32 lies between X and `MSDK_ALIGN32(X)`. */
  lemma Align32IsLeast(x: U32, m: U32)
    requires x <= 0xFFFF_FFE0
    requires m % 32 == 0 && x <= m
    ensures Align32(x) <= m
  {
  }

  lemma Align32Idempotent(x: U32)
    ensures Align32(Align32(x)) == Align32(x)
  {
  }

  /** `MSDK_ALIGN16(value)`: `((value + 15) >> 4) << 4` on an `int`.  The
      right shift of a negative value is taken as arithmetic (it rounds
      down), and value + 15 must not overflow.  The result is the least
      multiple of 16 that is >= value. */
  function Align16(v: Int32): (r: Int32)
    requires v <= TwoTo31 - 1 - 15
    ensures r % 16 == 0
    ensures v <= r < v + 16
  {
    (v + 15) / 16 * 16
  }

  lemma Align16IsLeast(v: Int32, m: int)
    requires v <= TwoTo31 - 1 - 15
    requires m % 16 == 0 && v <= m
    ensures Align16(v) <= m
  {
  }

  lemma Align16Idempotent(v: Int32)
    requires v <= TwoTo31 - 1 - 15
    ensures Align16(Align16(v)) == Align16(v)
  {
  }

  /** `MSDK_MAX(A, B)`: B when the two are equal. */
  function Max(a: int, b: int): (r: int)
    ensures a <= r && b <= r
    ensures r == a || r == b
  {
    if a > b then a else b
  }

  /** An `mfxStatus` code; `MFX_ERR_NONE` is 0. */
  type Status = int

  const ErrNone: Status := 0

  /** `MSDK_IGNORE_MFX_STS(P, X)`: the status X is treated as success, every
      other status passes unchanged. */
  function IgnoreStatus(p: Status, x: Status): (r: Status)
    ensures p == x ==> r == ErrNone
    ensures p != x ==> r == p
  {
    if x == p then ErrNone else p
  }

  /** `MSDK_BREAK_ON_ERROR(P)` leaves the loop on any status but success. */
  predicate BreaksOnError(p: Status)
  {
    p != ErrNone
  }

  /** Ignoring X and then breaking on error leaves the loop exactly on the
      errors other than X; a second filter changes nothing. */
  lemma IgnoreThenBreak(p: Status, x: Status)
    ensures BreaksOnError(IgnoreStatus(p, x)) <==> p != ErrNone && p != x
    ensures IgnoreStatus(IgnoreStatus(p, x), x) == IgnoreStatus(p, x)
  {
  }

  /** A pointer that may be null. */
  datatype Ptr = Null | Addr(id: nat)

  /** What was done to a pointee: `delete[]` or `->Release()`. */
  datatype Disposal = DeleteArray(id: nat) | Release(id: nat)

  datatype Owned = Owned(p: Ptr, disposed: seq<Disposal>)

  /** `MSDK_SAFE_DELETE_ARRAY(P)`: a live array is deleted and P is nulled;
      a null P is left alone. */
  function SafeDeleteArray(o: Owned): (r: Owned)
    ensures r.p == Null
    ensures o.p == Null ==> r == o
    ensures o.p != Null ==> r.disposed == o.disposed + [DeleteArray(o.p.id)]
  {
    match o.p
    case Null => o
    case Addr(id) => Owned(Null, o.disposed + [DeleteArray(id)])
  }

  /** `MSDK_SAFE_RELEASE(X)`: a live object is released and X is nulled; a
      null X is left alone. */
  function SafeRelease(o: Owned): (r: Owned)
    ensures r.p == Null
    ensures o.p == Null ==> r == o
    ensures o.p != Null ==> r.disposed == o.disposed + [Release(o.p.id)]
  {
    match o.p
    case Null => o
    case Addr(id) => Owned(Null, o.disposed + [Release(id)])
  }

  /** Applying either macro twice is the same as applying it once: nothing
      is deleted or released twice. */
  lemma SafeDisposalIdempotent(o: Owned)
    ensures SafeDeleteArray(SafeDeleteArray(o)) == SafeDeleteArray(o)
    ensures SafeRelease(SafeRelease(o)) == SafeRelease(o)
    ensures |SafeDeleteArray(o).disposed| <= |o.disposed| + 1
    ensures |SafeRelease(o).disposed| <= |o.disposed| + 1
  {
  }
}

=== FILE: qsv_client.dfy ===
/** The decode loop of the Quick Sync client (asio_net2/src/boost_main.cpp
    `main`), driving an abstract decoder.  For every received frame the
    decoder's answers are given as a `Reply`; the client keeps the frame size
    it last saw and an output buffer of width * height * 3 bytes. */
module QsvClient {
  import opened Wrappers
  import opened LittleEndian
  import opened WireFrame
  import QsvDecoder

  /** What the decoder answers while one packet is handled: `isInit()`, the
      result of `decodeHeader` (asked only when not initialised) and of
      `decode`, `getWidth()`/`getHeight()` after the decode, and the results
      of successive `getFrame` calls; past the end of `frames` it answers 0,
      "no frame ready". */
  datatype Reply = Reply(isInit: bool, header: int, decode: int, width: int, height: int, frames: seq<int>)

  /** What `new IntelQsvH264Decoder()` and `initialize()` answer, and the
      size the decoder reports right after. */
  datatype InitReply = InitReply(result: int, width: int, height: int)

  /** The calls the client makes on an existing decoder, in order. */
  datatype Call =
    | DecodeHeader(data: seq<bv8>)
    | Decode(data: seq<bv8>)
    | GetFrame(buffer: Option<int>)

  /** The size the client last saw and the byte count of its output
      buffer, if one is allocated. */
  datatype Client = Client(width: int, height: int, buffer: Option<int>)

  /** An allocated buffer holds exactly one packed 24-bit frame of the size
      the client tracks. */
  predicate BufferFits(c: Client)
  {
    c.buffer.Some? ==> c.buffer.value == c.width * c.height * 3
  }

  /** The result of one `getFrame` call. */
  function FrameResult(frames: seq<int>, i: nat): int
  {
    if i < |frames| then frames[i] else 0
  }

  /** How many frames are shown: `getFrame` is polled until it returns a
      value <= 0. */
  function Shown(frames: seq<int>): (k: nat)
    ensures k <= |frames|
    ensures forall i :: 0 <= i < k ==> frames[i] > 0
    ensures FrameResult(frames, k) <= 0
  {
    if |frames| == 0 || frames[0] <= 0 then 0 else 1 + Shown(frames[1..])
  }

  /** The polling loop: `ret = getFrame(...); while (ret > 0) { show;
      ret = getFrame(...); }`.  One call more than frames shown, every shown
      frame had a positive result and the last call did not. */
  method PollFrames(frames: seq<int>) returns (polls: nat, shown: nat)
    ensures polls == shown + 1
    ensures shown <= |frames|
    ensures forall i :: 0 <= i < shown ==> frames[i] > 0
    ensures FrameResult(frames, shown) <= 0
    ensures shown == Shown(frames)
  {
    var ret := FrameResult(frames, 0);
    polls := 1;
    shown := 0;
    while ret > 0
      invariant polls == shown + 1
      invariant shown <= |frames|
      invariant forall i :: 0 <= i < shown ==> frames[i] > 0
      invariant ret == FrameResult(frames, shown)
      invariant Shown(frames) == shown + Shown(frames[shown..])
      decreases |frames| - shown
    {
      assert frames[shown..][1..] == frames[shown + 1..];
      shown := shown + 1;
      ret := FrameResult(frames, shown);
      polls := polls + 1;
    }
    assert Shown(frames[shown..]) == 0;
  }

  /** How many of `calls` are `getFrame` calls. */
  function GetFrameCount(calls: seq<Call>): (n: nat)
    ensures n <= |calls|
  {
    if |calls| == 0 then 0 else (if calls[0].GetFrame? then 1 else 0) + GetFrameCount(calls[1..])
  }

  lemma {:induction false} GetFrameCountAppend(a: seq<Call>, b: seq<Call>)
    ensures GetFrameCount(a + b) == GetFrameCount(a) + GetFrameCount(b)
    decreases |a|
  {
    if |a| == 0 {
      assert a + b == b;
    } else {
      assert (a + b)[0] == a[0];
      assert (a + b)[1..] == a[1..] + b;
      GetFrameCountAppend(a[1..], b);
    }
  }

  /** A run of `n` calls that are all `getFrame` counts `n`, one with none
      counts 0. */
  lemma {:induction false} GetFrameCountUniform(calls: seq<Call>)
    ensures (forall i :: 0 <= i < |calls| ==> calls[i].GetFrame?) ==> GetFrameCount(calls) == |calls|
    ensures (forall i :: 0 <= i < |calls| ==> !calls[i].GetFrame?) ==> GetFrameCount(calls) == 0
    decreases |calls|
  {
    if |calls| > 0 {
      GetFrameCountUniform(calls[1..]);
    }
  }

  datatype Handled = Handled(next: Client, calls: seq<Call>, shown: nat)

  /** The header step passed: the decoder was initialised already or
      `decodeHeader` returned a value >= 0. */
  predicate HeaderReady(r: Reply)
  {
    r.isInit || r.header >= 0
  }

  /** `decode` was reached and returned 0. */
  predicate Decoded(r: Reply)
  {
    HeaderReady(r) && r.decode == 0
  }

  /** Handling one received payload. */
  function Handle(c: Client, payload: seq<bv8>, r: Reply): (h: Handled)
    // decodeHeader is asked only while the decoder is not initialised, and a
    // failed header skips the packet
    ensures DecodeHeader(payload) in h.calls <==> !r.isInit
    ensures !r.isInit && r.header < 0 ==> h == Handled(c, [DecodeHeader(payload)], 0)
    // a failed decode skips the packet: no size check, no getFrame
    ensures HeaderReady(r) && r.decode != 0 ==> h.next == c && h.shown == 0
    ensures HeaderReady(r) ==> Decode(payload) in h.calls
    ensures !Decoded(r) ==> forall i :: 0 <= i < |h.calls| ==> !h.calls[i].GetFrame?
    // after a successful decode the client tracks the decoder's size, and
    // the buffer is reallocated exactly when the size changed
    ensures Decoded(r) ==> h.next.width == r.width && h.next.height == r.height
    ensures Decoded(r) && (c.width != r.width || c.height != r.height) ==> h.next.buffer == Some(r.width * r.height * 3)
    ensures c.width == r.width && c.height == r.height ==> h.next == c
    // every getFrame call writes into the client's current buffer, and
    // polling stops at the first result <= 0
    ensures forall i :: 0 <= i < |h.calls| && h.calls[i].GetFrame? ==> h.calls[i].buffer == h.next.buffer
    ensures Decoded(r) ==> h.shown <= |r.frames| && FrameResult(r.frames, h.shown) <= 0
    ensures forall i :: 0 <= i < h.shown ==> r.frames[i] > 0
  {
    var header := if r.isInit then [] else [DecodeHeader(payload)];
    if !r.isInit && r.header < 0 then Handled(c, header, 0)
    else if r.decode != 0 then Handled(c, header + [Decode(payload)], 0)
    else
      var next :=
        if c.width != r.width || c.height != r.height then Client(r.width, r.height, Some(r.width * r.height * 3))
        else c;
      var k := Shown(r.frames);
      Handled(next, header + [Decode(payload)] + seq(k + 1, _ => GetFrame(next.buffer)), k)
  }

  /** The polling inside `Handle` runs as `PollFrames` does: after a
      successful decode it shows the positive prefix of the `getFrame`
      results and calls `getFrame` once more than it shows; otherwise it
      never calls `getFrame`. */
  lemma HandlePollsLikePollFrames(c: Client, payload: seq<bv8>, r: Reply)
    ensures var h := Handle(c, payload, r);
      Decoded(r) ==> h.shown == Shown(r.frames) && GetFrameCount(h.calls) == h.shown + 1
    ensures !Decoded(r) ==> GetFrameCount(Handle(c, payload, r).calls) == 0
  {
    var h := Handle(c, payload, r);
    var header := if r.isInit then [] else [DecodeHeader(payload)];
    GetFrameCountUniform(header);
    GetFrameCountUniform(header + [Decode(payload)]);
    if Decoded(r) {
      var prefix := header + [Decode(payload)];
      var polls := h.calls[|prefix|..];
      assert h.calls == prefix + polls;
      GetFrameCountUniform(polls);
      GetFrameCountAppend(prefix, polls);
    }
  }

  /** The order of the calls `Handle` makes: `decodeHeader` when the
      decoder is not initialised, then, once the header is ready, exactly
      one `decode`, and after it only `getFrame` polls. */
  lemma HandleCallOrder(c: Client, payload: seq<bv8>, r: Reply)
    ensures var h := Handle(c, payload, r);
      var header := if r.isInit then [] else [DecodeHeader(payload)];
      HeaderReady(r) ==>
        && |header| < |h.calls|
        && h.calls[..|header| + 1] == header + [Decode(payload)]
        && forall i :: |header| < i < |h.calls| ==> h.calls[i].GetFrame?
    ensures var h := Handle(c, payload, r);
      !HeaderReady(r) ==> h.calls == [DecodeHeader(payload)]
  {
    var h := Handle(c, payload, r);
    var header := if r.isInit then [] else [DecodeHeader(payload)];
    if HeaderReady(r) {
      var prefix := header + [Decode(payload)];
      assert h.calls[..|prefix|] == prefix;
    }
  }

  /** Handling a packet keeps the buffer sized for the tracked frame size. */
  lemma HandleKeepsBufferFit(c: Client, payload: seq<bv8>, r: Reply)
    ensures BufferFits(c) ==> BufferFits(Handle(c, payload, r).next)
  {
  }

  /** A freshly constructed decoder reports -1 x -1, so the first decode
      that reports a real frame size allocates the output buffer before the
      first `getFrame`. */
  lemma FirstDecodeAllocates(payload: seq<bv8>, r: Reply)
    requires Decoded(r) && r.width > 0
    ensures var d0 := QsvDecoder.Construct();
      var h := Handle(Client(QsvDecoder.GetWidth(d0), QsvDecoder.GetHeight(d0), None), payload, r);
      h.next.buffer == Some(r.width * r.height * 3) && (forall i :: 0 <= i < |h.calls| && h.calls[i].GetFrame? ==> h.calls[i].buffer.Some?)
  {
  }

  datatype Exit =
    | ReadStopped(error: ReadError)
    | InitFailed(result: int)
    | RepliesExhausted

  /** `decoders` counts the decoders created on the connection, and
      `packets` holds the payloads handed to `Handle`, in order. */
  datatype Run = Run(decoders: nat, client: Option<Client>, packets: seq<seq<bv8>>, calls: seq<Call>, shown: nat, exit: Exit)

  /** One connection of the Quick Sync client.  `client` is None until the
      decoder exists; it is created only while none exists, after an
      accepted type tag and before the timestamp is read, and a failing
      `initialize()` ends the program.  The output buffer stays sized for
      the tracked frame size throughout. */
  function Connection(s: seq<bv8>, init: InitReply, replies: seq<Reply>, client: Option<Client>): (run: Run)
    ensures run.decoders <= 1
    ensures client.Some? ==> run.decoders == 0 && run.client.Some?
    ensures client.None? ==> (run.decoders == 1 <==> |s| >= 4 && ByteToInt(s[..4]) == H264)
    ensures (client.None? || BufferFits(client.value)) ==> (run.client.None? || BufferFits(run.client.value))
    decreases |s|
  {
    if |s| < 4 then Run(0, client, [], [], 0, ReadStopped(ShortField(TypeTag, |s|)))
    else if ByteToInt(s[..4]) != H264 then Run(0, client, [], [], 0, ReadStopped(UnsupportedType(ByteToInt(s[..4]))))
    else if client.None? && init.result < 0 then Run(1, None, [], [], 0, InitFailed(init.result))
    else
      var c := if client.None? then Client(init.width, init.height, None) else client.value;
      var created := if client.None? then 1 else 0;
      match ParseFrame(s)
      case Failure(e) => Run(created, Some(c), [], [], 0, ReadStopped(e))
      case Success(p) =>
        if |replies| == 0 then Run(created, Some(c), [], [], 0, RepliesExhausted)
        else
          var h := Handle(c, p.frame.payload, replies[0]);
          HandleKeepsBufferFit(c, p.frame.payload, replies[0]);
          var more := Connection(p.rest, init, replies[1..], Some(h.next));
          Run(created + more.decoders, more.client, [p.frame.payload] + more.packets, h.calls + more.calls, h.shown + more.shown, more.exit)
  }

  /** The payloads of a sequence of frames. */
  function Payloads(fs: seq<Frame>): (ps: seq<seq<bv8>>)
    ensures |ps| == |fs|
    ensures forall i :: 0 <= i < |fs| ==> ps[i] == fs[i].payload
  {
    if |fs| == 0 then [] else [fs[0].payload] + Payloads(fs[1..])
  }

  lemma PayloadsCons(f: Frame, fs: seq<Frame>)
    ensures Payloads([f] + fs) == [f.payload] + Payloads(fs)
  {
    assert ([f] + fs)[1..] == fs;
  }

  /** While the decoder initialises and keeps answering, a Quick Sync
      connection reads the stream exactly as the receive loop does: it hands
      the received frames' payloads to `Handle` in order, creates the same
      decoders, and stops with the error that ends the receive loop. */
  lemma {:induction false} ConnectionFollowsReceiveAll(s: seq<bv8>, init: InitReply, replies: seq<Reply>, client: Option<Client>)
    requires client.Some? || init.result >= 0
    requires |ReceiveAll(s, client.Some?).frames| <= |replies|
    ensures var run := Connection(s, init, replies, client);
      var rcv := ReceiveAll(s, client.Some?);
      run.packets == Payloads(rcv.frames) && run.decoders == rcv.contexts && run.exit == ReadStopped(rcv.stop)
    decreases |s|
  {
    var rcv := ReceiveAll(s, client.Some?);
    ReceiveAllCreatesOneContext(s, client.Some?);
    if |s| >= 4 && ByteToInt(s[..4]) == H264 {
      match ParseFrame(s)
      case Failure(e) =>
      case Success(p) =>
        var more := ReceiveAll(p.rest, true);
        assert rcv.frames == [p.frame] + more.frames;
        PayloadsCons(p.frame, more.frames);
        var c := if client.None? then Client(init.width, init.height, None) else client.value;
        var h := Handle(c, p.frame.payload, replies[0]);
        ConnectionFollowsReceiveAll(p.rest, init, replies[1..], Some(h.next));
    }
  }
}

=== FILE: qsv_decoder.dfy ===
/** The observable state of `IntelQsvH264Decoder`
    (asio_net2/include/intel_video_decoder.h): the fields with initial values
    and the inline getters.  The method bodies are not part of this model;
    the decoder's answers are supplied to the client loop as an oracle. */
module QsvDecoder {

  datatype DecoderFields = DecoderFields(nIndex: int, width: int, height: int, isInitialized: bool)

  /** `getWidth()` */
  function GetWidth(d: DecoderFields): int
  {
    d.width
  }

  /** `getHeight()` */
  function GetHeight(d: DecoderFields): int
  {
    d.height
  }

  /** `isInit()` */
  function IsInit(d: DecoderFields): bool
  {
    d.isInitialized
  }

  /** `new IntelQsvH264Decoder()`: no size known yet and not initialised. */
  function Construct(): (d: DecoderFields)
    ensures GetWidth(d) == -1 && GetHeight(d) == -1
    ensures !IsInit(d)
    ensures d.nIndex == 0
  {
    DecoderFields(0, -1, -1, false)
  }
}

=== FILE: resize_config.dfy ===
/** The `resize` setting of the FFmpeg client (asio_net/src/boost_main.cpp):
    a "WxH" value read by `readIniFile`, written back by `writeIniFile`, and
    the test that decides whether displayed frames are resized. */
module ResizeConfig {
  import opened Wrappers
  import opened LittleEndian
  import opened Decimal

  /** The target size; -1 means "not set". */
  datatype Resize = Resize(width: int, height: int)

  /** `resizeWidth = -1; resizeHeight = -1;` at program start. */
  const Unset: Resize := Resize(-1, -1)

  const Separator: char := 'x'

  /** Occurrences of `c` in `s`. */
  function Count(s: string, c: char): nat
  {
    if |s| == 0 then 0 else (if s[0] == c then 1 else 0) + Count(s[1..], c)
  }

  /** Pieces joined back with the separator between neighbours. */
  function Join(parts: seq<string>, sep: char): string
    requires |parts| > 0
  {
    if |parts| == 1 then parts[0] else parts[0] + [sep] + Join(parts[1..], sep)
  }

  /** `boost::algorithm::split(parts, s, is_any_of(sep))` with empty tokens
      kept: one piece more than there are separators, none containing it,
      and joining them gives `s` back. */
  function Split(s: string, sep: char): (parts: seq<string>)
    ensures |parts| == Count(s, sep) + 1
    ensures forall i :: 0 <= i < |parts| ==> sep !in parts[i]
    ensures Join(parts, sep) == s
  {
    if |s| == 0 then [""]
    else
      var rest := Split(s[1..], sep);
      if s[0] == sep then
        assert ([""] + rest)[1..] == rest;
        [""] + rest
      else
        var parts := [[s[0]] + rest[0]] + rest[1..];
        assert parts[1..] == rest[1..];
        assert s == [s[0]] + s[1..];
        parts
  }

  /** The `resize` branch of `readIniFile`: the value is taken only when it
      splits into exactly two pieces that `std::stoi` reads as positive
      numbers; otherwise (including when `stoi` throws) the prior size stays. */
  function ParseResize(value: string, prior: Resize): (r: Resize)
    ensures r == prior || (0 < r.width < TwoTo31 && 0 < r.height < TwoTo31)
  {
    var parts := Split(value, Separator);
    if |parts| != 2 then prior
    else
      match (Stoi(parts[0]), Stoi(parts[1]))
      case (Success(w), Success(h)) => if w > 0 && h > 0 then Resize(w, h) else prior
      case _ => prior
  }

  /** The `resize` value `writeIniFile` stores:
      `std::to_string(W) + "x" + std::to_string(H)`. */
  function FormatResize(r: Resize): string
  {
    IntToString(r.width) + [Separator] + IntToString(r.height)
  }

  /** The condition under which a displayed frame is resized. */
  predicate ResizeEnabled(r: Resize)
  {
    r.width > 0 && r.height > 0
  }

  /** The position of the first `c` in `s`, or |s| when there is none. */
  function IndexOf(s: string, c: char): (i: nat)
    ensures i <= |s|
    ensures c !in s[..i]
    ensures i < |s| ==> s[i] == c
  {
    if |s| == 0 || s[0] == c then 0 else 1 + IndexOf(s[1..], c)
  }

  /** The size a value stands for, stated without splitting: exactly one
      'x', and `std::stoi` reads a positive number on each side of it. */
  function Accepted(value: string): Option<Resize>
  {
    var i := IndexOf(value, Separator);
    if i == |value| || Separator in value[i + 1..] then None
    else
      match (Stoi(value[..i]), Stoi(value[i + 1..]))
      case (Success(w), Success(h)) => if w > 0 && h > 0 then Some(Resize(w, h)) else None
      case _ => None
  }

  lemma {:induction false} CountZero(s: string, c: char)
    ensures Count(s, c) == 0 <==> c !in s
  {
    if |s| > 0 {
      CountZero(s[1..], c);
      assert s == [s[0]] + s[1..];
    }
  }

  lemma {:induction false} CountAppend(a: string, b: string, c: char)
    ensures Count(a + b, c) == Count(a, c) + Count(b, c)
  {
    if |a| > 0 {
      assert (a + b)[1..] == a[1..] + b;
      CountAppend(a[1..], b, c);
    } else {
      assert a + b == b;
    }
  }

  /** A value with exactly one separator splits into the text on either side. */
  lemma {:induction false} SplitAtOnlySeparator(a: string, b: string, sep: char)
    requires sep !in a && sep !in b
    ensures Split(a + [sep] + b, sep) == [a, b]
  {
    var s := a + [sep] + b;
    if |a| == 0 {
      assert s[1..] == b;
      CountZero(b, sep);
      assert |Split(b, sep)| == 1;
    } else {
      assert s[1..] == a[1..] + [sep] + b;
      SplitAtOnlySeparator(a[1..], b, sep);
      assert [s[0]] + a[1..] == a;
    }
  }

  /** Reading the value through `split` is the same as looking for its only
      'x': the two definitions agree on every value and every prior size. */
  lemma ParseResizeIsAccepted(value: string, prior: Resize)
    ensures ParseResize(value, prior) == (match Accepted(value) case Some(r) => r case None => prior)
  {
    var i := IndexOf(value, Separator);
    if i == |value| {
      assert value[..i] == value;
      CountZero(value, Separator);
    } else {
      var a, b := value[..i], value[i + 1..];
      assert value == a + [Separator] + b;
      CountAppend(a + [Separator], b, Separator);
      CountAppend(a, [Separator], Separator);
      CountZero(a, Separator);
      CountZero(b, Separator);
      if Separator !in b {
        SplitAtOnlySeparator(a, b, Separator);
      } else {
        assert |Split(value, Separator)| > 2;
      }
    }
  }

  lemma NoSeparatorInIntToString(n: int)
    ensures Separator !in IntToString(n)
  {
    var s := IntToString(n);
    forall i | 0 <= i < |s|
      ensures s[i] != Separator
    {
      if n < 0 && 0 < i {
        assert s[i] == NatToString(-n)[i - 1];
      }
    }
  }

  /** What `readIniFile` makes of a value `writeIniFile` wrote: the size
      itself when it is positive, the prior size otherwise. */
  lemma ParseFormatted(r: Resize, prior: Resize)
    requires -TwoTo31 <= r.width < TwoTo31 && -TwoTo31 <= r.height < TwoTo31
    ensures ParseResize(FormatResize(r), prior) == if ResizeEnabled(r) then r else prior
  {
    var a, b := IntToString(r.width), IntToString(r.height);
    NoSeparatorInIntToString(r.width);
    NoSeparatorInIntToString(r.height);
    SplitAtOnlySeparator(a, b, Separator);
    StoiOfIntToString(r.width, "");
    StoiOfIntToString(r.height, "");
    assert a + "" == a;
    assert b + "" == b;
  }

  /** A positive size written by `writeIniFile` is read back by
      `readIniFile`, whatever size was in effect before. */
  lemma FormatParseRoundTrip(r: Resize, prior: Resize)
    requires 0 < r.width < TwoTo31 && 0 < r.height < TwoTo31
    ensures ParseResize(FormatResize(r), prior) == r
  {
    ParseFormatted(r, prior);
  }

  /** Writing the current size and reading the file again changes nothing,
      for every 32-bit size: a positive size is read back, and anything else
      (the default -1x-1 among them) is written as a value that is refused. */
  lemma WriteThenReadKeepsSize(r: Resize)
    requires -TwoTo31 <= r.width < TwoTo31 && -TwoTo31 <= r.height < TwoTo31
    ensures ParseResize(FormatResize(r), r) == r
  {
    ParseFormatted(r, r);
  }

  /** At start-up no resizing happens; after reading a value, resizing is on
      exactly when the value was accepted. */
  lemma ResizeOnlyWhenAccepted(value: string)
    ensures !ResizeEnabled(Unset)
    ensures ResizeEnabled(ParseResize(value, Unset)) <==> Accepted(value).Some?
  {
    ParseResizeIsAccepted(value, Unset);
  }
}

=== FILE: winsock_receive.dfy ===
/** The receive side of the winsock client (asio_net/src/winsock_main.cpp):
    frames carry only a 4-byte little-endian length and the payload; a length
    <= 0 ends the session, and the payload is gathered by repeated `recv`
    calls until `length` bytes have arrived.

    `recv` is modelled by a script of offers, one per call: a positive offer
    is the number of bytes the socket could hand over and is cut down to the
    number asked for; 0 (the peer closed the connection) and -1
    (SOCKET_ERROR) come back unchanged. */
module WinsockReceive {
  import opened Wrappers
  import opened LittleEndian

  datatype LengthError = ShortLength(got: nat) | NonPositiveLength(length: Int32)

  /** The length header: `header` holds the bytes the single 4-byte `recv`
      delivered.  Fewer than four ends the session, and so does a decoded
      length <= 0, before any payload buffer is allocated. */
  function ReadLength(header: seq<bv8>): (r: Result<Int32, LengthError>)
    requires |header| <= 4
    ensures r.Success? <==> |header| == 4 && header[3] < 0x80 && header != [0, 0, 0, 0]
    ensures r.Success? ==> r.value == ByteToInt(header) > 0
  {
    if |header| < 4 then Failure(ShortLength(|header|))
    else
      var length := ByteToInt(header);
      ByteToIntSign(header);
      assert length == 0 <==> header == [0, 0, 0, 0] by {
        if length == 0 { assert header == [header[0], header[1], header[2], header[3]]; }
      }
      if length <= 0 then Failure(NonPositiveLength(length)) else Success(length)
  }

  /** The value one `recv` call returns when `want` bytes are asked for. */
  function Recv(offer: int, want: int): (n: int)
    requires want > 0
    ensures n <= want
    ensures offer > 0 ==> 0 < n
    ensures offer <= want ==> n == offer
  {
    if offer > want then want else offer
  }

  predicate AllPositive(offers: seq<int>)
  {
    forall i :: 0 <= i < |offers| ==> offers[i] > 0
  }

  datatype Progress = Progress(bufLen: int, calls: nat) {
    /** The same progress, preceded by `k` more calls. */
    function After(k: nat): Progress
    {
      Progress(bufLen, calls + k)
    }
  }

  /** The accumulation loop exactly as written,
      `while (bufLen < length) bufLen += recv(..., length - bufLen, 0);`,
      run against a script of offers.  When the script runs out while
      `bufLen < length` the loop is still running.  Whenever the loop does
      exit, `bufLen == length`: the `bufLen != length` check after it can
      never fire. */
  function LoopAsWritten(length: int, bufLen: int, offers: seq<int>): (p: Progress)
    requires bufLen <= length
    ensures p.calls <= |offers|
    ensures p.bufLen <= length
    ensures p.bufLen < length ==> p.calls == |offers|
    ensures AllPositive(offers) ==> bufLen <= p.bufLen && p.calls <= p.bufLen - bufLen
    decreases |offers|
  {
    if bufLen >= length || |offers| == 0 then Progress(bufLen, 0)
    else
      var q := LoopAsWritten(length, bufLen + Recv(offers[0], length - bufLen), offers[1..]);
      q.After(1)
  }

  /** A loop as written that has reached `length` makes no further calls,
      whatever the script still holds. */
  lemma {:induction false} LoopAsWrittenFinished(length: int, bufLen: int, offers: seq<int>, more: seq<int>)
    requires bufLen <= length
    requires LoopAsWritten(length, bufLen, offers) == Progress(length, |offers|)
    ensures LoopAsWritten(length, bufLen, offers + more) == Progress(length, |offers|)
    decreases |offers|
  {
    if |offers| == 0 {
      assert offers + more == more;
    } else {
      var next := bufLen + Recv(offers[0], length - bufLen);
      assert (offers + more)[0] == offers[0];
      assert (offers + more)[1..] == offers[1..] + more;
      LoopAsWrittenFinished(length, next, offers[1..], more);
    }
  }

  /** One more call at the end of a script that the loop as written ran to
      its end without finishing: the loop makes that call too. */
  lemma {:induction false} LoopAsWrittenExtend(length: int, bufLen: int, offers: seq<int>, offer: int)
    requires bufLen <= length
    requires LoopAsWritten(length, bufLen, offers).calls == |offers|
    requires LoopAsWritten(length, bufLen, offers).bufLen < length
    ensures var p := LoopAsWritten(length, bufLen, offers);
      LoopAsWritten(length, bufLen, offers + [offer]) == Progress(p.bufLen + Recv(offer, length - p.bufLen), |offers| + 1)
    decreases |offers|
  {
    if |offers| == 0 {
      assert offers + [offer] == [offer];
      assert [offer][1..] == [];
    } else {
      var next := bufLen + Recv(offers[0], length - bufLen);
      assert (offers + [offer])[0] == offers[0];
      assert (offers + [offer])[1..] == offers[1..] + [offer];
      LoopAsWrittenExtend(length, next, offers[1..], offer);
    }
  }

  /** A pass of the corrected loop that receives bytes is a pass of the loop
      as written over the first `calls + 1` results. */
  lemma PassAsWritten(length: int, offers: seq<int>, bufLen: int, calls: nat)
    requires 0 <= bufLen < length && calls < |offers| && offers[calls] > 0
    requires LoopAsWritten(length, 0, offers[..calls]) == Progress(bufLen, calls)
    ensures var n := Recv(offers[calls], length - bufLen);
      LoopAsWritten(length, 0, offers[..calls + 1]) == Progress(bufLen + n, calls + 1)
  {
    LoopAsWrittenExtend(length, 0, offers[..calls], offers[calls]);
    assert offers[..calls + 1] == offers[..calls] + [offers[calls]];
  }

  /** When the peer closes the connection mid-payload every further `recv`
      returns 0: after any number of calls the loop has made no progress and
      is still running, so it never ends. */
  lemma {:induction false} PeerCloseNeverEnds(length: int, bufLen: int, n: nat)
    requires bufLen < length
    ensures LoopAsWritten(length, bufLen, seq(n, _ => 0)) == Progress(bufLen, n)
  {
    if n > 0 {
      var offers := seq(n, _ => 0);
      assert offers[1..] == seq(n - 1, _ => 0);
      PeerCloseNeverEnds(length, bufLen, n - 1);
    }
  }

  /** A SOCKET_ERROR drives `bufLen` below zero: the next `recv` would write
      in front of the payload buffer. */
  lemma SocketErrorUnderflows(length: int)
    requires length > 0
    ensures LoopAsWritten(length, 0, [-1]) == Progress(-1, 1)
  {
    assert [-1][1..] == [];
  }

  datatype Fill =
    | Filled(bufLen: int, calls: nat)
    | ConnectionLost(bufLen: int, calls: nat, code: int)
    | Pending(bufLen: int, calls: nat)
  {
    /** The calls whose result was added to `bufLen`: all of them but the
        one that reported the lost connection. */
    function Added(): nat
    {
      if ConnectionLost? && calls > 0 then calls - 1 else calls
    }
  }

  /** The accumulation loop as evidently intended: a `recv` result <= 0 ends
      the loop instead of being added to `bufLen`.  The buffer never
      overflows or underflows, `bufLen == length` exactly when it completed,
      and on a socket that only ever offers bytes it behaves like the loop as
      written. */
  method ReceivePayload(length: Int32, offers: seq<int>) returns (f: Fill)
    requires length > 0
    ensures 0 <= f.bufLen <= length
    ensures f.calls <= |offers|
    ensures f.Filled? <==> f.bufLen == length
    ensures f.ConnectionLost? ==> 1 <= f.calls && f.code == offers[f.calls - 1] <= 0
    // the first result <= 0 ends the loop: every result added before it was
    // positive, and bufLen is what the loop as written reaches on them
    ensures forall i :: 0 <= i < f.Added() ==> offers[i] > 0
    ensures LoopAsWritten(length, 0, offers[..f.Added()]) == Progress(f.bufLen, f.Added())
    ensures f.Pending? ==> f.calls == |offers|
    ensures AllPositive(offers) ==> !f.ConnectionLost? && LoopAsWritten(length, 0, offers) == Progress(f.bufLen, f.calls)
    ensures AllPositive(offers) && |offers| >= length ==> f.Filled?
  {
    var bufLen := 0;
    var calls := 0;
    while bufLen < length && calls < |offers|
      invariant 0 <= bufLen <= length
      invariant calls <= |offers|
      invariant forall i :: 0 <= i < calls ==> offers[i] > 0
      invariant LoopAsWritten(length, 0, offers[..calls]) == Progress(bufLen, calls)
      decreases |offers| - calls
    {
      var n := Recv(offers[calls], length - bufLen);
      if n <= 0 {
        return ConnectionLost(bufLen, calls + 1, n);
      }
      PassAsWritten(length, offers, bufLen, calls);
      bufLen := bufLen + n;
      calls := calls + 1;
    }
    if AllPositive(offers) {
      if calls == |offers| {
        assert offers[..calls] == offers;
      } else {
        LoopAsWrittenFinished(length, 0, offers[..calls], offers[calls..]);
        assert offers[..calls] + offers[calls..] == offers;
      }
    }
    if bufLen == length {
      f := Filled(bufLen, calls);
    } else {
      f := Pending(bufLen, calls);
    }
  }

  datatype SessionError = BadLength(error: LengthError) | PeerClosed(length: Int32, available: nat)

  /** One pass of the session loop, on a socket that hands over every byte
      it still has (the stream `s`), with the corrected accumulation loop. */
  function ReadWinsockFrame(s: seq<bv8>): (r: Result<(seq<bv8>, seq<bv8>), SessionError>)
    ensures r.Success? ==> 0 < |r.value.0| < TwoTo31 && s == IntToBytes(|r.value.0|) + r.value.0 + r.value.1
  {
    var header := if |s| < 4 then s else s[..4];
    match ReadLength(header)
    case Failure(e) => Failure(BadLength(e))
    case Success(length) =>
      if |s| - 4 < length then Failure(PeerClosed(length, |s| - 4))
      else
        IntToBytesRoundTrip(header);
        assert s == header + s[4..4 + length] + s[4 + length..];
        Success((s[4..4 + length], s[4 + length..]))
  }

  /** Writing a non-empty payload behind its length and reading it back gives
      the payload and leaves the rest of the stream untouched. */
  lemma WinsockFrameRoundTrip(payload: seq<bv8>, rest: seq<bv8>)
    requires 0 < |payload| < TwoTo31
    ensures ReadWinsockFrame(IntToBytes(|payload|) + payload + rest) == Success((payload, rest))
  {
    var s := IntToBytes(|payload|) + payload + rest;
    assert s[..4] == IntToBytes(|payload|);
    ByteToIntRoundTrip(|payload|);
    assert s[4..4 + |payload|] == payload;
    assert s[4 + |payload|..] == rest;
  }

  /** Unlike the boost clients, an empty frame ends the winsock session. */
  lemma EmptyFrameEndsSession(rest: seq<bv8>)
    ensures ReadWinsockFrame(IntToBytes(0) + rest) == Failure(BadLength(NonPositiveLength(0)))
  {
    var s := IntToBytes(0) + rest;
    assert s[..4] == IntToBytes(0);
    ByteToIntRoundTrip(0);
  }

  /** The bytes a winsock sender writes for a sequence of payloads. */
  function EncodeSession(ps: seq<seq<bv8>>): seq<bv8>
    requires forall i :: 0 <= i < |ps| ==> |ps[i]| < TwoTo31
  {
    if |ps| == 0 then [] else IntToBytes(|ps[0]|) + ps[0] + EncodeSession(ps[1..])
  }

  /** One more payload in front of a received prefix: the payloads stay
      non-empty and their encodings stay a prefix of the stream. */
  lemma SessionStep(payload: seq<bv8>, rest: seq<bv8>, more: seq<seq<bv8>>)
    requires 0 < |payload| < TwoTo31
    requires forall i :: 0 <= i < |more| ==> 0 < |more[i]| < TwoTo31
    requires EncodeSession(more) <= rest
    ensures forall i :: 0 <= i < |[payload] + more| ==> 0 < |([payload] + more)[i]| < TwoTo31
    ensures EncodeSession([payload] + more) <= IntToBytes(|payload|) + payload + rest
  {
    var ps := [payload] + more;
    assert ps[0] == payload && ps[1..] == more;
    assert EncodeSession(ps) == IntToBytes(|payload|) + payload + EncodeSession(more);
    assert (IntToBytes(|payload|) + payload + rest)[..|EncodeSession(ps)|] == EncodeSession(ps);
  }

  /** What one winsock connection leaves behind: the payloads handed to the
      decoder, the error that ended the session, and how many decoder
      contexts the loop created. */
  datatype Session = Session(payloads: seq<seq<bv8>>, stop: SessionError, contexts: nat)

  /** The session loop: each pass first creates the decoder context if there
      is none (`hasContext`), then reads one frame; the loop ends at the first
      error.  The payloads read are exactly a prefix of the stream. */
  function ReceiveSession(s: seq<bv8>, hasContext: bool): (r: Session)
    ensures forall i :: 0 <= i < |r.payloads| ==> 0 < |r.payloads[i]| < TwoTo31
    ensures EncodeSession(r.payloads) <= s
    ensures r.contexts == (if hasContext then 0 else 1)
    decreases |s|
  {
    var here := if hasContext then 0 else 1;
    match ReadWinsockFrame(s)
    case Failure(e) => Session([], e, here)
    case Success(p) =>
      var more := ReceiveSession(p.1, true);
      SessionStep(p.0, p.1, more.payloads);
      Session([p.0] + more.payloads, more.stop, here + more.contexts)
  }

  /** Skipping the encodings of a payload and then of `more` skips the
      payload's frame and then the same bytes of the rest. */
  lemma SkipEncodedFrame(s: seq<bv8>, payload: seq<bv8>, rest: seq<bv8>, more: seq<seq<bv8>>)
    requires 0 < |payload| < TwoTo31 && s == IntToBytes(|payload|) + payload + rest
    requires forall i :: 0 <= i < |more| ==> 0 < |more[i]| < TwoTo31
    requires |EncodeSession(more)| <= |rest|
    ensures |EncodeSession([payload] + more)| <= |s|
    ensures s[|EncodeSession([payload] + more)|..] == rest[|EncodeSession(more)|..]
  {
    var ps := [payload] + more;
    assert ps[0] == payload && ps[1..] == more;
    var head := IntToBytes(|payload|) + payload;
    var m := |EncodeSession(more)|;
    assert EncodeSession(ps) == head + EncodeSession(more);
    assert |EncodeSession(ps)| == |head| + m;
    assert s == head + rest;
    assert s[|head| + m..] == rest[m..] by {
      assert s[|head|..] == rest;
      assert s[|head|..][m..] == s[|head| + m..];
    }
  }

  /** The session stops exactly at the first frame that fails to read:
      what follows the payloads received is a stream whose read fails with
      the error that ended the session. */
  lemma {:induction false} ReceiveSessionStops(s: seq<bv8>, hasContext: bool)
    ensures var r := ReceiveSession(s, hasContext);
      |EncodeSession(r.payloads)| <= |s| && ReadWinsockFrame(s[|EncodeSession(r.payloads)|..]) == Failure(r.stop)
    decreases |s|
  {
    var r := ReceiveSession(s, hasContext);
    match ReadWinsockFrame(s)
    case Failure(e) =>
      assert r.payloads == [] && r.stop == e;
      assert EncodeSession(r.payloads) == [];
      assert s[0..] == s;
    case Success(p) =>
      ReceiveSessionStops(p.1, true);
      var more := ReceiveSession(p.1, true);
      assert r.payloads == [p.0] + more.payloads && r.stop == more.stop;
      SkipEncodedFrame(s, p.0, p.1, more.payloads);
  }

  /** Non-empty payloads written one after another are read back one by one,
      and the session ends only when no length header is left. */
  lemma {:induction false} SessionRoundTrip(ps: seq<seq<bv8>>, hasContext: bool)
    requires forall i :: 0 <= i < |ps| ==> 0 < |ps[i]| < TwoTo31
    ensures ReceiveSession(EncodeSession(ps), hasContext).payloads == ps
    ensures ReceiveSession(EncodeSession(ps), hasContext).stop == BadLength(ShortLength(0))
    decreases |ps|
  {
    if |ps| == 0 {
      assert ReadLength([]) == Failure(ShortLength(0));
    } else {
      var rest := EncodeSession(ps[1..]);
      assert EncodeSession(ps) == IntToBytes(|ps[0]|) + ps[0] + rest;
      WinsockFrameRoundTrip(ps[0], rest);
      SessionRoundTrip(ps[1..], true);
      assert ReceiveSession(EncodeSession(ps), hasContext).payloads == [ps[0]] + ReceiveSession(rest, true).payloads;
      assert [ps[0]] + ps[1..] == ps;
    }
  }
}

=== FILE: wire_frame.dfy ===
/** The frame reader of the two boost clients (asio_net and asio_net2
    `main`): every frame is a 4-byte little-endian type tag, which must be 1
    (H.264), a 4-byte timestamp, a 4-byte payload length and exactly that many
    payload bytes.  The socket is modelled as the sequence of bytes it will
    still deliver; a blocking `boost::asio::read` of n bytes hands back
    min(n, what is left) of them. */
module WireFrame {
  import opened Wrappers
  import opened LittleEndian

  /** The only type tag the clients accept: H.264. */
  const H264: Int32 := 1

  datatype Field = TypeTag | Timestamp | Length

  /** Every way the receive loop of one connection ends. */
  datatype ReadError =
    | ShortField(field: Field, got: nat)          // bufLen < 4 on a header field
    | UnsupportedType(tag: Int32)                  // type != 1
    | ShortPayload(length: Int32, available: nat)  // bufLen != length

  datatype Frame = Frame(timestamp: Int32, payload: seq<bv8>)

  datatype Parsed = Parsed(frame: Frame, rest: seq<bv8>)

  /** A frame whose payload length fits the 32-bit length field. */
  predicate WellFormed(f: Frame)
  {
    |f.payload| < TwoTo31
  }

  /** The bytes a sender writes for one frame. */
  function EncodeFrame(f: Frame): (bs: seq<bv8>)
    requires WellFormed(f)
    ensures |bs| == 12 + |f.payload|
  {
    IntToBytes(H264) + IntToBytes(f.timestamp) + IntToBytes(|f.payload|) + f.payload
  }

  /** One pass of the receive loop: type, timestamp, length, payload.  A type
      other than H.264 stops before the timestamp is read; a payload that is
      not exactly `length` bytes long is an error (a negative length is one
      too: a read never returns a negative count). */
  function ParseFrame(s: seq<bv8>): (r: Result<Parsed, ReadError>)
    ensures |s| < 4 ==> r == Failure(ShortField(TypeTag, |s|))
    ensures |s| >= 4 && ByteToInt(s[..4]) != H264 ==> r == Failure(UnsupportedType(ByteToInt(s[..4])))
    ensures r.Success? ==> WellFormed(r.value.frame) && s == EncodeFrame(r.value.frame) + r.value.rest
  {
    if |s| < 4 then Failure(ShortField(TypeTag, |s|))
    else
      var tag := ByteToInt(s[..4]);
      if tag != H264 then Failure(UnsupportedType(tag))
      else if |s| < 8 then Failure(ShortField(Timestamp, |s| - 4))
      else
        var timestamp := ByteToInt(s[4..8]);
        if |s| < 12 then Failure(ShortField(Length, |s| - 8))
        else
          var length := ByteToInt(s[8..12]);
          if length < 0 || |s| - 12 < length then Failure(ShortPayload(length, |s| - 12))
          else
            var f := Frame(timestamp, s[12..12 + length]);
            HeaderFieldsReencode(s);
            assert s == EncodeFrame(f) + s[12 + length..];
            Success(Parsed(f, s[12 + length..]))
  }

  /** The three header fields of `s` are the encodings of the values they
      decode to, so the header can be rebuilt from the decoded frame. */
  lemma HeaderFieldsReencode(s: seq<bv8>)
    requires |s| >= 12
    ensures s[..4] == IntToBytes(ByteToInt(s[..4]))
    ensures s[4..8] == IntToBytes(ByteToInt(s[4..8]))
    ensures s[8..12] == IntToBytes(ByteToInt(s[8..12]))
    ensures s == s[..4] + s[4..8] + s[8..12] + s[12..]
  {
    IntToBytesRoundTrip(s[..4]);
    IntToBytesRoundTrip(s[4..8]);
    IntToBytesRoundTrip(s[8..12]);
  }

  /** Reading back what a sender wrote gives the frame and leaves the bytes
      after it untouched. */
  lemma FrameRoundTrip(f: Frame, rest: seq<bv8>)
    requires WellFormed(f)
    ensures ParseFrame(EncodeFrame(f) + rest) == Success(Parsed(f, rest))
  {
    var s := EncodeFrame(f) + rest;
    var n := |f.payload|;
    assert s[..4] == IntToBytes(H264);
    assert s[4..8] == IntToBytes(f.timestamp);
    assert s[8..12] == IntToBytes(n);
    ByteToIntRoundTrip(H264);
    ByteToIntRoundTrip(f.timestamp);
    ByteToIntRoundTrip(n);
    assert s[12..12 + n] == f.payload;
    assert s[12 + n..] == rest;
  }

  /** An unsupported type tag ends the loop whatever follows it: nothing
      after the first four bytes is looked at. */
  lemma UnsupportedTypeReadsNothingMore(tag: seq<bv8>, rest1: seq<bv8>, rest2: seq<bv8>)
    requires |tag| == 4 && ByteToInt(tag) != H264
    ensures ParseFrame(tag + rest1) == ParseFrame(tag + rest2) == Failure(UnsupportedType(ByteToInt(tag)))
  {
    assert (tag + rest1)[..4] == tag;
    assert (tag + rest2)[..4] == tag;
  }

  /** Every header field is read in full or the loop ends; a complete header
      followed by fewer than `length` bytes ends it too. */
  lemma ShortReadsAreErrors(s: seq<bv8>)
    requires |s| >= 4 && ByteToInt(s[..4]) == H264
    ensures |s| < 8 ==> ParseFrame(s) == Failure(ShortField(Timestamp, |s| - 4))
    ensures 8 <= |s| < 12 ==> ParseFrame(s) == Failure(ShortField(Length, |s| - 8))
    ensures |s| >= 12 && |s| - 12 < ByteToInt(s[8..12]) ==>
              ParseFrame(s) == Failure(ShortPayload(ByteToInt(s[8..12]), |s| - 12))
  {
  }

  /** The bytes a sender writes for a sequence of frames. */
  function EncodeAll(fs: seq<Frame>): seq<bv8>
    requires forall i :: 0 <= i < |fs| ==> WellFormed(fs[i])
  {
    if |fs| == 0 then [] else EncodeFrame(fs[0]) + EncodeAll(fs[1..])
  }

  /** One more frame in front of a received prefix: the frames stay
      well-formed and their encodings stay a prefix of the stream. */
  lemma ReceiveStep(f: Frame, rest: seq<bv8>, more: seq<Frame>)
    requires WellFormed(f)
    requires forall i :: 0 <= i < |more| ==> WellFormed(more[i])
    requires EncodeAll(more) <= rest
    ensures forall i :: 0 <= i < |[f] + more| ==> WellFormed(([f] + more)[i])
    ensures EncodeAll([f] + more) <= EncodeFrame(f) + rest
  {
    var fs := [f] + more;
    assert fs[0] == f && fs[1..] == more;
    assert EncodeAll(fs) == EncodeFrame(f) + EncodeAll(more);
    assert (EncodeFrame(f) + rest)[..|EncodeAll(fs)|] == EncodeAll(fs);
  }

  /** What one connection of the FFmpeg client leaves behind: the frames
      handed to the decoder, the error that ended the loop, and how many
      decoder contexts the loop created. */
  datatype Received = Received(frames: seq<Frame>, stop: ReadError, contexts: nat)

  /** The receive loop of one connection: frames are read until the first
      error, and the frames read are exactly a prefix of the stream.  The
      decoder context is created just after an accepted type tag, before the
      timestamp is read, and only while none exists (`hasContext`). */
  function ReceiveAll(s: seq<bv8>, hasContext: bool): (r: Received)
    ensures forall i :: 0 <= i < |r.frames| ==> WellFormed(r.frames[i])
    ensures EncodeAll(r.frames) <= s
    decreases |s|
  {
    var here := if hasContext then 0 else 1;
    match ParseFrame(s)
    case Failure(e) =>
      // a type tag of 1 creates the context even if the rest of the frame
      // is missing
      Received([], e, if |s| >= 4 && ByteToInt(s[..4]) == H264 then here else 0)
    case Success(p) =>
      var more := ReceiveAll(p.rest, true);
      ReceiveStep(p.frame, p.rest, more.frames);
      Received([p.frame] + more.frames, more.stop, here + more.contexts)
  }

  /** At most one decoder context per connection: none when one exists,
      otherwise one exactly when the first type tag is accepted; no frame
      reaches the decoder without a context. */
  lemma {:induction false} ReceiveAllCreatesOneContext(s: seq<bv8>, hasContext: bool)
    ensures ReceiveAll(s, hasContext).contexts <= 1
    ensures hasContext ==> ReceiveAll(s, hasContext).contexts == 0
    ensures !hasContext ==> (ReceiveAll(s, hasContext).contexts == 1 <==> |s| >= 4 && ByteToInt(s[..4]) == H264)
    ensures |ReceiveAll(s, hasContext).frames| > 0 ==> hasContext || ReceiveAll(s, hasContext).contexts == 1
    decreases |s|
  {
    match ParseFrame(s)
    case Failure(_) =>
    case Success(p) => ReceiveAllCreatesOneContext(p.rest, true);
  }

  lemma SkipAfter(a: seq<bv8>, b: seq<bv8>, m: nat)
    requires m <= |b|
    ensures (a + b)[|a| + m..] == b[m..]
  {
  }

  /** The loop stops exactly at the first frame that fails to parse: what
      follows the frames received is a stream whose parse fails with the
      error that ended the loop. */
  lemma {:induction false} ReceiveAllStops(s: seq<bv8>, hasContext: bool)
    ensures var r := ReceiveAll(s, hasContext);
      |EncodeAll(r.frames)| <= |s| && ParseFrame(s[|EncodeAll(r.frames)|..]) == Failure(r.stop)
    decreases |s|
  {
    var r := ReceiveAll(s, hasContext);
    match ParseFrame(s)
    case Failure(e) =>
      assert r.frames == [] && r.stop == e;
      assert EncodeAll(r.frames) == [];
      assert s[0..] == s;
    case Success(p) =>
      ReceiveAllStops(p.rest, true);
      var more := ReceiveAll(p.rest, true);
      var fs := [p.frame] + more.frames;
      assert r.frames == fs && r.stop == more.stop;
      assert fs[0] == p.frame && fs[1..] == more.frames;
      var k, m := |EncodeFrame(p.frame)|, |EncodeAll(more.frames)|;
      assert |EncodeAll(fs)| == k + m;
      SkipAfter(EncodeFrame(p.frame), p.rest, m);
      assert s[k + m..] == p.rest[m..];
      assert ParseFrame(p.rest[m..]) == Failure(more.stop);
  }

  /** A stream of well-formed frames is received frame by frame, and the loop
      ends only when the stream runs out before the next type tag. */
  lemma {:induction false} ReceiveAllRoundTrip(fs: seq<Frame>, hasContext: bool)
    requires forall i :: 0 <= i < |fs| ==> WellFormed(fs[i])
    ensures ReceiveAll(EncodeAll(fs), hasContext).frames == fs
    ensures ReceiveAll(EncodeAll(fs), hasContext).stop == ShortField(TypeTag, 0)
    decreases |fs|
  {
    if |fs| > 0 {
      var rest := EncodeAll(fs[1..]);
      assert EncodeAll(fs) == EncodeFrame(fs[0]) + rest;
      FrameRoundTrip(fs[0], rest);
      ReceiveAllRoundTrip(fs[1..], true);
      assert ReceiveAll(EncodeAll(fs), hasContext).frames == [fs[0]] + ReceiveAll(rest, true).frames;
      assert [fs[0]] + fs[1..] == fs;
    }
  }
}

=== FILE: wrappers.dfy ===
/** Failure-carrying return values used across the model: the source signals
    failure by breaking out of a loop, returning a negative code or throwing,
    and each of those becomes a `Failure` here. */
module Wrappers {

  datatype Option<+T> = None | Some(value: T)

  datatype Result<+R, +E> = Success(value: R) | Failure(error: E)
}
